=== FILE: README.md ===
# poliintel-ai scoring pipeline, modelled in Dafny

This project models the scoring and aggregation core of the poliintel-ai constituency dashboard. It covers five parts:

- **Booth health engine** (`booth_health.dfy`, module `BoothHealth`). It turns one booth's votes, turnout and swing into a weighted 0–100 health index. It also produces rounded percentages and a zone label, a batch map, and the risk / neutral / opportunity classifier.
- **Seat aggregator and chart reshapers** (`dashboard_analytics.dfy`, module `DashboardAnalytics`). This covers the seat metrics, the swing, vote-share, turnout, sentiment and cadre series, and the risk heat grid.
- **Booth service** (`booth_service.dfy`, module `BoothService`). This covers the in-memory part of `getBoothsWithHealth`:
  - the latest election row per booth, with the constituency filter and the join with booth and constituency records;
  - the high-risk booth table;
  - the opportunity clusters.
- **Served dashboard summary** (`dashboard_service.dfy`, module `DashboardService`). This is the aggregation that `getDashboardSummary` returns once the booths have been fetched.
- **Strategic summary** (`ai_insights.dfy`, module `AiInsights`). This covers the rule-based fallback text, and the choice between that text and a completion's answer.

Three shared modules live in `numeric.dfy` and `collections.dfy`:

- `Numeric`: `Math.round`, rounding to a tenth, clamping, sums and means.
- `Seqs`: `filter`, `slice`, `join`, de-duplication in first-seen order, and decimal numerals.
- `OrderedMap`: a JavaScript `Map` as an insertion-ordered list of entries. Setting a new key appends it. Setting an existing key keeps its position. `new Map(entries)` keeps the last value for each key.

## Modelling choices

**Numbers.** JavaScript numbers are exact `real`s.
- `Math.round(x)` is `Floor(x + 0.5)`.
- `Math.round(x * 10) / 10` is `RoundTenth`.
- Counts that can only be whole are `nat`.

**Query results are inputs.** A null query result is the empty list. A nullable column is an `Option`.

**Latest row per booth.** The election rows arrive newest election year first, so the first row of a booth is its latest row.

**Health index column in `getDashboardSummary`.** The column is a three-way `HealthField` because JavaScript treats the cases differently:
- `undefined` compares false with every number;
- `null` compares as 0;
- both count as 0 in the `|| 0` mean.

**JavaScript truthiness.**
- `total || 1` replaces only a zero total.
- `if (constituencyId)` treats the empty string like an absent id.
- `if (!apiKey)` treats an empty key like an unset key.

**Sorting.** `Array.prototype.sort` is stable, so the ascending health sort is a stable insertion sort. The model proves that this sort orders by health, only reorders, and keeps the relative order of equal healths.

**Number-to-text.** Converting a number to text inside a template literal is a parameter `fmt: real -> string`. Cluster labels contain only whole numbers, so they use `NatToString`.

**Reported percentages are not clamped.** Only the three sub-scores are clamped to [0, 100]. The reported `turnout_pct` and `vote_share_pct` are the raw ratios rounded to a tenth, so a turnout of 110 percent is reported as 110 (`TurnoutPctIsNotClamped`).

## Model

| member | source | states |
|---|---|---|
| Numeric.Clamp | src/lib/analytics/boothHealth.ts:40 | the result lies in [lo, hi]; it is the input when the input is inside, and the nearer end otherwise |
| Numeric.Round | src/lib/services/booth.service.ts:120-121 | `Math.round` lands within half a unit of its argument (above −½, at most +½) |
| Numeric.RoundTenth | src/lib/analytics/boothHealth.ts:66 | rounding to a tenth gives a whole number of tenths within 0.05 of the argument (above −0.05, at most +0.05) |
| Numeric.RoundUnique | src/lib/services/booth.service.ts:120-121 | the integer in (x − ½, x + ½] is unique, so the contract of Round fixes `Math.round` exactly |
| Numeric.RoundTenthUnique | src/lib/analytics/boothHealth.ts:66 | a whole number of tenths in (x − 0.05, x + 0.05] is unique, so the contract of RoundTenth fixes `Math.round(x * 10) / 10` exactly |
| Numeric.RoundMonotone | src/lib/analytics/dashboardAnalytics.ts:121 | `Math.round` never reverses the order of two numbers |
| Numeric.RoundWithin | src/lib/analytics/dashboardAnalytics.ts:111-113 | rounding a value between two whole numbers stays between them |
| Numeric.RoundTenthMonotone | src/lib/analytics/boothHealth.ts:66 | rounding to a tenth never reverses the order of two numbers |
| Numeric.RoundTenthWithin | src/lib/analytics/boothHealth.ts:66 | rounding to a tenth keeps a value inside [lo, hi] for whole lo, hi, which keeps the health index in [0, 100] |
| Numeric.Sum | src/lib/analytics/dashboardAnalytics.ts:52-53 | the `reduce` sum, with no contract of its own; SumBounds and MeanBounds bound it |
| Numeric.Mean | src/lib/analytics/dashboardAnalytics.ts:52-53 | the sum divided by the length, defined only for a non-empty list; MeanBounds gives its meaning |
| Numeric.MeanBounds | src/lib/analytics/dashboardAnalytics.ts:52-53 | `Mean` of values in [lo, hi] lies in [lo, hi] |
| Seqs.Filter | src/lib/services/booth.service.ts:113 | `filter` keeps only elements that pass and never lengthens the list |
| Seqs.FirstSeen | src/lib/services/booth.service.ts:43 | `[...new Set(s)]`, with no contract of its own; FirstSeenMembers and FirstSeenOrder give its meaning |
| Seqs.FirstSeenMembers | src/lib/services/booth.service.ts:43 | `FirstSeen(s)`, which is `[...new Set(s)]`, holds every value of s exactly once and nothing else |
| Seqs.FirstSeenOrder | src/lib/services/booth.service.ts:77-80 | the values of `FirstSeen(s)` are ordered by the position of their first occurrence in s |
| Seqs.SliceEnd | src/lib/services/booth.service.ts:115 | `slice(0, end)` keeps `end` items, clipped to the length, with a negative `end` counted from the back |
| Seqs.Join | src/lib/services/aiInsights.service.ts:99-104 | `parts.join(sep)`, with no contract of its own; JoinShape and JoinSplit give its meaning |
| Seqs.JoinShape | src/lib/services/aiInsights.service.ts:104 | `Join(parts, sep)` starts with the first part, ends with the last, and is as long as the parts plus one separator between each neighbouring pair |
| Seqs.JoinSplit | src/lib/services/aiInsights.service.ts:104 | `Join` of one part is that part, and cutting the parts at any position splits `Join(parts, sep)` into the joins of the two halves around exactly one separator, so the join is the parts in order with one separator between neighbours |
| Seqs.NatToString | src/lib/services/booth.service.ts:145 | a whole number prints as decimal digits that read back as the number, with no leading zero (and "0" for zero) |
| OrderedMap.Get | src/lib/services/booth.service.ts:82 | `get` finds a value exactly when the key is present, and that value belongs to the key's entry |
| OrderedMap.Set | src/lib/services/booth.service.ts:80 | `set` keeps the key order for a present key, appends a new key, maps the key to the new value and leaves every other key's value alone |
| OrderedMap.SetNewKey | src/lib/services/booth.service.ts:80 | setting an absent key appends one entry at the end |
| OrderedMap.Delete | src/lib/services/booth.service.ts:83 | `delete` removes the key, leaves every other key's value alone, and keeps the other keys in their order |
| OrderedMap.DeleteLast | src/lib/services/booth.service.ts:80-83 | deleting the key that was just appended restores the previous map |
| OrderedMap.FromEntries | src/lib/services/booth.service.ts:63-65 | `new Map(entries)` has each key once |
| OrderedMap.FromEntriesGet | src/lib/services/booth.service.ts:66-75 | looking a key up in `new Map(entries)` finds the value of its last entry |
| BoothHealth.SwingToScore | src/lib/analytics/boothHealth.ts:34-37 | the swing score is `50 + 2.5 × swing` for swings in [−20, 20], 0 at or below −20 and 100 at or above 20, so always in [0, 100] |
| BoothHealth.SwingToScoreMonotone | src/lib/analytics/boothHealth.ts:34-37 | a larger swing never scores lower |
| BoothHealth.TurnoutToScore | src/lib/analytics/boothHealth.ts:39-41 | the turnout score is the percentage held to [0, 100]: 0 at or below 0, 100 at or above 100, the percentage itself in between |
| BoothHealth.VoteShareToScore | src/lib/analytics/boothHealth.ts:43-45 | the vote-share score is the percentage held to [0, 100]: 0 at or below 0, 100 at or above 100, the percentage itself in between |
| BoothHealth.VoteSharePct | src/lib/analytics/boothHealth.ts:48-49 | our share of the two-party vote in percent, with a zero total read as 1; no contract of its own, ComputeBoothHealth states the reported share and WorkedExample a value |
| BoothHealth.TurnoutPct | src/lib/analytics/boothHealth.ts:50-51 | turnout in percent of the electorate, 0 when the voter count is not positive; no contract of its own, ComputeBoothHealth states the guard and TurnoutPctIsNotClamped that it is not capped |
| BoothHealth.RawHealth | src/lib/analytics/boothHealth.ts:54-61 | the unrounded index is 0.4 × swing score + 0.3 × turnout score + 0.3 × vote-share score, and lies in [0, 100] |
| BoothHealth.RawHealthClosedForm | src/lib/analytics/boothHealth.ts:34-61 | when no sub-score is clamped, the unrounded index is 20 + swing + 0.3 × turnout + 0.3 × vote share |
| BoothHealth.ComputeBoothHealth | src/lib/analytics/boothHealth.ts:47-74 | health index in [0, 100]; the reported percentages are the raw ratios rounded to a tenth; an empty two-party vote gives share 0; no electorate gives turnout 0; a null swing is 0; the zone is the region or "Unknown"; the identifiers are copied unchanged |
| BoothHealth.HealthMonotoneInSwing | src/lib/analytics/boothHealth.ts:52-66 | raising only the swing never lowers the health index |
| BoothHealth.MissingSwingIsZero | src/lib/analytics/boothHealth.ts:52 | a booth without a swing scores exactly like a swing of 0 |
| BoothHealth.TurnoutPctIsNotClamped | src/lib/analytics/boothHealth.ts:50-68 | 2200 ballots from 2000 voters report turnout 110 while the turnout score stops at 100 |
| BoothHealth.WorkedExample | src/lib/analytics/boothHealth.ts:47-74 | 1200 of 2000 votes, 1600 of 2000 voters and swing 5 give share 60, turnout 80 and health 67 |
| BoothHealth.ComputeBoothHealthBatch | src/lib/analytics/boothHealth.ts:76-80 | the batch keeps length and order; its i-th result is the health of the i-th row |
| BoothHealth.BatchHealthInRange | src/lib/analytics/boothHealth.ts:76-80 | every health index in a batch lies in [0, 100] |
| BoothHealth.ClassifyBooth | src/lib/analytics/boothHealth.ts:82-88 | risk exactly when below 50, opportunity exactly when at least 70, neutral exactly in between |
| BoothHealth.ClassifyMonotone | src/lib/analytics/boothHealth.ts:82-88 | a healthier booth is never classified lower |
| BoothHealth.ClassifyBoundaries | src/lib/analytics/boothHealth.ts:85-87 | 49.9 is risk, 50 and 69.9 are neutral, 70 is opportunity |
| DashboardAnalytics.DisjointFiltersBound | src/lib/analytics/dashboardAnalytics.ts:54-57 | two filters that never both accept keep at most all elements together |
| DashboardAnalytics.AvgHealthInRange | src/lib/analytics/dashboardAnalytics.ts:52-71 | the rounded mean health lies in [0, 100] when every health does |
| DashboardAnalytics.ComputeSeatMetrics | src/lib/analytics/dashboardAnalytics.ts:40-77 | no booths give all-zero metrics; the risk and opportunity counts are the booths below 50 and at or above 70, together at most n; seat health and cadre index lie in [0, 100]; each figure is the clamped, tenth-rounded formula over the mean health and mean swing |
| DashboardAnalytics.ThreeBoothExample | src/lib/analytics/dashboardAnalytics.ts:52-57 | healths 40, 60 and 80 give one risk booth, one opportunity booth and mean 60 |
| DashboardAnalytics.BuildSwingTrend | src/lib/analytics/dashboardAnalytics.ts:79-85 | one point per period in order; a missing projection repeats the swing |
| DashboardAnalytics.DefaultProjection | src/lib/analytics/dashboardAnalytics.ts:92 | the default projection is a whole number within half a vote of our votes grown by 5 percent |
| DashboardAnalytics.DefaultProjectionAtLeastVotes | src/lib/analytics/dashboardAnalytics.ts:92 | for a whole vote count the default projection is never below the count |
| DashboardAnalytics.BuildVoteShareProjection | src/lib/analytics/dashboardAnalytics.ts:87-94 | one point per item in order; a missing projection is the default projection |
| DashboardAnalytics.BuildTurnoutData | src/lib/analytics/dashboardAnalytics.ts:96-101 | one point per year in order, with the year as name and the turnout unchanged |
| DashboardAnalytics.Favorable | src/lib/analytics/dashboardAnalytics.ts:106 | the favourable share is `45 + 5 × change` for changes in [−3, 3], 30 at or below −3 and 60 at or above 3 |
| DashboardAnalytics.Unfavorable | src/lib/analytics/dashboardAnalytics.ts:107 | the unfavourable share is `20 − 2 × change` for changes in [−5, 5], 30 at or below −5 and 10 at or above 5 |
| DashboardAnalytics.NeutralShare | src/lib/analytics/dashboardAnalytics.ts:108 | the neutral share lies in [10, 60] and the three shares sum to exactly 100 before rounding |
| DashboardAnalytics.SentimentFor | src/lib/analytics/dashboardAnalytics.ts:104-114 | each shown share is `Math.round` of its clamped share; the shares stay in their bands and sum to 99, 100 or 101 |
| DashboardAnalytics.BuildSentimentFromSwing | src/lib/analytics/dashboardAnalytics.ts:103-116 | one point per period; each is the sentiment of the change since the previous period; the first period shows 45/35/20 |
| DashboardAnalytics.SentimentMonotone | src/lib/analytics/dashboardAnalytics.ts:105-107 | a larger change in swing never lowers the favourable share nor raises the unfavourable one |
| DashboardAnalytics.RoundedSharesCanExceed100 | src/lib/analytics/dashboardAnalytics.ts:108-113 | a change of 0.1 gives shares 46/35/20, which sum to 101 |
| DashboardAnalytics.BuildCadrePerformance | src/lib/analytics/dashboardAnalytics.ts:118-124 | one point per region in order; the target is always 75; the performance is within half a point of the region's health, and in [0, 100] when that health is |
| DashboardAnalytics.RiskScore | src/lib/analytics/dashboardAnalytics.ts:130-132 | the risk score is the integer within half a point of 100 − health, and lies in [0, 100] when the health does |
| DashboardAnalytics.RiskScores | src/lib/analytics/dashboardAnalytics.ts:130-132 | one risk score per booth in order |
| DashboardAnalytics.BuildRiskHeatGrid | src/lib/analytics/dashboardAnalytics.ts:126-138 | no booths give `[[0]]` for any column count; otherwise the rows read in order are the risk scores; every row but the last has exactly `cols` cells, and the last has 1 to `cols` |
| BoothService.BoothEntries | src/lib/services/booth.service.ts:66-75 | one booth-map entry per booth record, with a null voter count read as 0 |
| BoothService.FirstRowFor | src/lib/services/booth.service.ts:77-80 | a booth has a first row exactly when some row names it, and that row is one of the rows |
| BoothService.FirstRowForSnoc | src/lib/services/booth.service.ts:77-80 | a later row never changes a booth's first row; it only gives a first row to a booth not seen before |
| BoothService.KeptRowsStayFirst | src/lib/services/booth.service.ts:78-80 | the booths already remembered keep their first row when a row is added |
| BoothService.LatestStep | src/lib/services/booth.service.ts:79-84 | one pass of the loop body, with no contract of its own; LatestStepSeen, LatestStepNewKept and LatestStepNewDropped cover its three cases |
| BoothService.LatestByBooth | src/lib/services/booth.service.ts:77-85 | the `latestByBooth` map after the loop, with no contract of its own; LatestByBoothSpec gives its meaning |
| BoothService.LatestStepSeen | src/lib/services/booth.service.ts:80 | `LatestStep` on a row of a booth that is already remembered changes nothing |
| BoothService.LatestStepNewKept | src/lib/services/booth.service.ts:80-84 | `LatestStep` on the first row of a new booth that passes the filter remembers it at the end |
| BoothService.LatestStepNewDropped | src/lib/services/booth.service.ts:80-84 | `LatestStep` on the first row of a new booth outside the constituency sets it and at once deletes it, so the map is unchanged |
| BoothService.LatestByBoothSpec | src/lib/services/booth.service.ts:77-85 | `LatestByBooth` keeps one entry per booth that passes the filter, in first-seen order, each holding that booth's first (latest) row |
| BoothService.Joined | src/lib/services/booth.service.ts:87-101 | the joined row keeps the booth id and swing; present vote and turnout values pass through and null ones become 0; the booth number, voter count and constituency come from the booth record, and the region is the one recorded for the booth's constituency |
| BoothService.JoinRows | src/lib/services/booth.service.ts:87-103 | the `map` to joined rows followed by the null filter, with no contract of its own; JoinRowsSpec gives its meaning |
| BoothService.JoinRowsSpec | src/lib/services/booth.service.ts:87-103 | `JoinRows` keeps exactly the rows whose booth has a booth record, in order, and each joined row comes from one of them |
| BoothService.GetBoothsWithHealth | src/lib/services/booth.service.ts:41-105 | no election rows give []; a constituency with no fetched booth gives []; the results are the kept booths that have a record, once each, in first-seen order, each computed from the booth's latest row; with a filter every result carries the requested constituency |
| BoothService.JoinedResultsSpec | src/lib/services/booth.service.ts:77-105 | the health results of the joined latest rows are, in order, the kept booths that have a record, each computed from its latest row |
| BoothService.NoBoothInNothingKept | src/lib/services/booth.service.ts:52-55 | when no fetched booth is in the constituency, the loop keeps no booth |
| BoothService.InsertByHealth | src/lib/services/booth.service.ts:114 | one insertion step of the stable sort; its own contract states only the length, and InsertPermutes, InsertSorted and InsertStable give its meaning |
| BoothService.SortByHealth | src/lib/services/booth.service.ts:114 | the ascending health sort; its own contract states only the length, and SortByHealthSorted and SortByHealthStable give its meaning |
| BoothService.InsertPermutes | src/lib/services/booth.service.ts:114 | `InsertByHealth` adds exactly the inserted booth |
| BoothService.InsertSorted | src/lib/services/booth.service.ts:114 | `InsertByHealth` into a health-sorted list keeps it sorted |
| BoothService.InsertStable | src/lib/services/booth.service.ts:114 | after `InsertByHealth`, among the booths of any one health the inserted booth comes first and those already in the list follow in their order |
| BoothService.SortByHealthSorted | src/lib/services/booth.service.ts:114 | `SortByHealth` orders by ascending health and is a permutation of its input |
| BoothService.SortByHealthStable | src/lib/services/booth.service.ts:114 | `SortByHealth` keeps the booths of any one health value in their input order |
| BoothService.SortedBelowMembers | src/lib/services/booth.service.ts:113-114 | a booth is among the sorted candidates exactly when it is an input booth below 55 |
| BoothService.PrefixLowest | src/lib/services/booth.service.ts:114-115 | a prefix of a health-sorted list holds no booth healthier than one left out |
| BoothService.SelectHighRisk | src/lib/services/booth.service.ts:112-115 | the selection keeps `slice(0, limit)` many input booths below 55, sorted ascending; a below-55 booth left out is at least as healthy as every selected one; with room for all, it is exactly the booths below 55 |
| BoothService.SelectedAreCandidates | src/lib/services/booth.service.ts:113-115 | every selected booth is an input booth below 55 |
| BoothService.SelectedAreLowest | src/lib/services/booth.service.ts:114-115 | no below-55 booth left out is healthier than a selected one |
| BoothService.SelectedMultiset | src/lib/services/booth.service.ts:113-115 | the selection takes each input booth at most as often as it occurs, and takes all candidates when the limit allows |
| BoothService.ToHighRiskBooth | src/lib/services/booth.service.ts:116-122 | the label is "B-" and the booth number, and the zone is copied; the shown health and turnout are within half a point; the swing is a whole number of tenths within 0.05; a booth below 55 shows at most 55 |
| BoothService.MapToHighRiskBooths | src/lib/services/booth.service.ts:108-123 | row i is the display of the i-th booth of the high-risk selection, an input booth below 55; at most `limit` rows, shown health at most 55 and non-decreasing; no below-55 booth left out shows a lower health than a listed row |
| BoothService.HighRiskShowsFiftyFive | src/lib/services/booth.service.ts:113-121 | a booth at 54.5 passes the `< 55` test and is shown with health 55 |
| BoothService.ZoneGroups | src/lib/services/booth.service.ts:129-135 | the reference grouping lists every zone once, in order of first occurrence |
| BoothService.GroupStep | src/lib/services/booth.service.ts:131-134 | one pass of the grouping loop, with no contract of its own; GroupStepAddsKeys and GroupStepAddsLists give its meaning |
| BoothService.GroupByZone | src/lib/services/booth.service.ts:129-135 | the `byZone` map after the loop, with no contract of its own; GroupByZoneSpec and GroupByZoneIsZoneGroups give its meaning |
| BoothService.GroupStepAddsKeys | src/lib/services/booth.service.ts:132-134 | `GroupStep` on an opportunity booth keeps the zones in first-seen order, each once |
| BoothService.GroupStepAddsLists | src/lib/services/booth.service.ts:132-134 | `GroupStep` on an opportunity booth appends it to its own zone's list and changes no other list |
| BoothService.GroupByZoneSpec | src/lib/services/booth.service.ts:129-135 | after `GroupByZone` each zone of a booth at or above 65 appears once, in first-seen order, holding exactly its booths at or above 65 in input order |
| BoothService.GroupByZoneIsZoneGroups | src/lib/services/booth.service.ts:129-135 | `GroupByZone` builds exactly the reference grouping `ZoneGroups` of the booths at or above 65 |
| BoothService.PotentialOf | src/lib/services/booth.service.ts:142-143 | High exactly at or above 4, Medium exactly in [2.5, 4), Low exactly below 2.5 |
| BoothService.MakeCluster | src/lib/services/booth.service.ts:141-149 | the label is "C", the decimal index, then the zone and the booth count in parentheses; the cluster counts its booths, rates the potential from the unrounded mean swing, and shows that mean as a whole number of tenths within 0.05 |
| BoothService.PotentialReadsUnroundedMean | src/lib/services/booth.service.ts:141-147 | a mean swing of 3.96 is shown as 4.0 but rated Medium |
| BoothService.BuildClusters | src/lib/services/booth.service.ts:139-151 | the loop never yields more clusters than zones |
| BoothService.BuildClustersSpec | src/lib/services/booth.service.ts:139-151 | the loop reports exactly the zones with two or more booths, in order, numbered consecutively; a skipped zone uses up no number |
| BoothService.MapToOpportunityClusters | src/lib/services/booth.service.ts:125-153 | at most 5 clusters, each of at least two booths; cluster i+1 is the (i+1)-th zone, in first-seen order, with two or more booths at or above 65 |
| DashboardService.OrZero | src/lib/services/dashboard.service.ts:34 | the field's number, or 0 when the field is missing or null, as JavaScript's `or 0` gives it; no contract of its own, Contributions and NullIsZero give its meaning |
| DashboardService.JsLess | src/lib/services/dashboard.service.ts:41-42 | JavaScript `f < c`, with no contract of its own; ServedCountsMeaning and MissingIsNotRisk give its meaning |
| DashboardService.JsAtLeast | src/lib/services/dashboard.service.ts:42 | JavaScript `f >= c`, with no contract of its own; ServedCountsMeaning gives its meaning |
| DashboardService.Contributions | src/lib/services/dashboard.service.ts:34 | a booth contributes its health, or 0 when the health is absent or null |
| DashboardService.GetDashboardSummary | src/lib/services/dashboard.service.ts:14-52 | a null or empty booth list gives all-zero figures; all six series are empty; seat health equals the average index, the whole-number rounding of the mean; risk counts null or below 50; opportunity counts [50, 70); the two counts together are at most n; cadre 65 and turnout sensitivity 72 |
| DashboardService.ServedCountsMeaning | src/lib/services/dashboard.service.ts:41-42 | `JsLess` and `JsAtLeast`, the JavaScript comparisons, select null or below 50 for risk, and numbers in [50, 70) for opportunity |
| DashboardService.ServedScoreBounds | src/lib/services/dashboard.service.ts:33-40 | the served score is within half a point of the mean, and in [0, 100] when every present health is |
| DashboardService.NullIsZero | src/lib/services/dashboard.service.ts:34-42 | replacing a null health by 0 changes nothing in the summary |
| DashboardService.BandsDifferFromAggregator | src/lib/services/dashboard.service.ts:41-42 | health 60 is an opportunity here but not in the seat aggregator, and 75 the other way round |
| DashboardService.MissingIsNotRisk | src/lib/services/dashboard.service.ts:34-41 | an absent health averages like a null one, but only the null one counts as risk |
| AiInsights.FirstN | src/lib/services/aiInsights.service.ts:99-102 | `slice(0, n)` is a prefix of exactly min(n, length) names |
| AiInsights.ClosingSentence | src/lib/services/aiInsights.service.ts:95-103 | the sentence the fallback ends with, with no contract of its own; FallbackSentences and FallbackEnding give its meaning |
| AiInsights.FallbackParts | src/lib/services/aiInsights.service.ts:88-103 | the sentences in the order they are pushed, with no contract of its own; FallbackSentences states what they are |
| AiInsights.Render | src/lib/services/aiInsights.service.ts:89-103 | the template literal of each sentence, with no contract of its own; SeatHealthOpening and SwingSign state its openings, and BuildFallbackSummary joins its output |
| AiInsights.FallbackSentences | src/lib/services/aiInsights.service.ts:88-103 | the sentences of `FallbackParts` number 2 to 5, in fixed order, each kind at most once; the seat-health sentence comes first and `ClosingSentence` last; the swing sentence appears iff the swing is non-zero; the turnout sentence always appears; the doorstep sentence appears iff there are high-risk booths and names the first min(3, count) of them; the consolidation sentence appears iff there are opportunity zones and names the first min(2, count) |
| AiInsights.SwingSign | src/lib/services/aiInsights.service.ts:92-94 | the swing sentence has a `+` right after "Average swing " exactly when the swing is positive |
| AiInsights.BuildFallbackSummary | src/lib/services/aiInsights.service.ts:79-105 | the text starts with the seat-health sentence; cut anywhere between two sentences it is the earlier sentences joined, one space, and the later sentences joined, so it is the sentences in order separated by single spaces; its length is that of the sentences plus one space between each neighbouring pair |
| AiInsights.SeatHealthOpening | src/lib/services/aiInsights.service.ts:89-91 | the first sentence opens with "Seat health at " |
| AiInsights.FallbackNotEmpty | src/lib/services/aiInsights.service.ts:88-104 | the fallback text is never empty |
| AiInsights.FallbackEnding | src/lib/services/aiInsights.service.ts:95-104 | the text ends with the consolidation sentence, else the doorstep sentence, else the turnout sentence |
| AiInsights.LeadingSpace | src/lib/services/aiInsights.service.ts:72 | counts exactly the white space before the first other character |
| AiInsights.TrailingSpace | src/lib/services/aiInsights.service.ts:72 | counts exactly the white space after the last other character |
| AiInsights.Trim | src/lib/services/aiInsights.service.ts:72 | `trim` gives the stretch from the first to the last non-space character; it is empty exactly when the answer is all white space |
| AiInsights.TrimIdempotent | src/lib/services/aiInsights.service.ts:72 | trimming twice is trimming once |
| AiInsights.GenerateStrategicSummary | src/lib/services/aiInsights.service.ts:45-76 | the fallback when the key is unset or empty, the request throws or the answer has no content; otherwise the trimmed answer |
| AiInsights.BlankAnswerGivesEmptySummary | src/lib/services/aiInsights.service.ts:72-73 | an all-white-space answer yields the empty summary, not the fallback |
| AiInsights.GenerateStrategicSummaryOrFallback | src/lib/services/aiInsights.service.ts:72-73 | the corrected choice is never empty, and it differs from the as-written choice only by falling back on a blank answer |

## Left out

- The database queries are left out: the `election_data`, `booths` and `constituencies` selects, their ordering and the 1000-row limit, and the `throw` on a query error. The same holds for `getBoothsByConstituency`, `getStoredRecommendations` and the HTTP routes. These are I/O through an external client. Their results are inputs, and a null result is an empty list.
- The completion request is left out: the OpenAI client, the prompt text, the model parameters and reading `OPENAI_API_KEY`. It is a foreign network call. Its outcome and the key are parameters.
- JavaScript's number-to-string conversion is left out. Template literals print through a parameter `fmt`. `SwingSign` assumes only that `fmt` never writes a leading `+`.
- IEEE-754 behaviour is left out: NaN, infinities and binary rounding error. Numbers are exact reals. An absent `booth_health_index` is modelled by its NaN comparisons only.
- BoothService.MapToOpportunityClusters: has no `clusterSize` parameter, because the source never reads it.
- DashboardAnalytics.BuildRiskHeatGrid: requires `cols >= 1` when there is at least one booth, because then the source loop never ends for a column count of zero or less. With no booths the loop is skipped and any column count gives `[[0]]`, which the model covers. A fractional `cols` is not modelled.
- BoothService.MapToHighRiskBooths: sorts with a stable insertion sort. It relies on the stability that ECMAScript 2019 and later guarantee for `Array.prototype.sort`. An engine with an unstable sort could order equal healths differently.

## Findings

| source | as written | input that shows it | evidently intended | confidence | as-written member | corrected member |
|---|---|---|---|---|---|---|
| src/lib/services/aiInsights.service.ts:72-73 | `text ?? buildFallbackSummary(context)` falls back only when the trimmed text is `undefined` | an answer whose content is `" \n"` trims to `""`, and `??` returns that empty string | fall back whenever there is no usable text (`\|\|`), so the summary is never empty | medium, not executed | AiInsights.BlankAnswerGivesEmptySummary | AiInsights.GenerateStrategicSummaryOrFallback |

=== FILE: ai_insights.dfy ===
/** The strategic summary: the rule-based fallback text, and the choice
    between it and the text of a language-model completion. The completion
    call itself is not modelled; its outcome is an input. */
module AiInsights {
  import opened Nullable
  import opened Seqs

  /** The figures the summary is written from. */
  datatype SummaryContext = SummaryContext(
    seatHealth: real,
    riskCount: real,
    opportunityCount: real,
    avgSwing: real,
    turnoutSensitivity: real,
    highRiskBooths: seq<string>,
    opportunityZones: seq<string>)

  /** How a template literal prints a number. JavaScript's number-to-string
      conversion is not modelled; it is a parameter. */
  type NumberFormat = real -> string

  const MaxNamedBooths: nat := 3
  const MaxNamedZones: nat := 2

  /** The sentences the fallback can contain, in the order it adds them. */
  datatype Sentence =
    | SeatHealthLine(health: real, risk: real, opportunity: real)
    | SwingLine(swing: real)
    | TurnoutLine(sensitivity: real)
    | DoorstepLine(booths: seq<string>)
    | ConsolidateLine(zones: seq<string>)

  /** Position of a sentence kind in the fallback. */
  function Order(s: Sentence): nat
  {
    match s
    case SeatHealthLine(_, _, _) => 0
    case SwingLine(_) => 1
    case TurnoutLine(_) => 2
    case DoorstepLine(_) => 3
    case ConsolidateLine(_) => 4
  }

  /** `names.slice(0, n)`. */
  function FirstN(names: seq<string>, n: nat): (r: seq<string>)
    ensures |r| <= n && r <= names
    ensures |names| <= n ==> r == names
    ensures |r| == if |names| <= n then |names| else n
  {
    names[..SliceEnd(|names|, n)]
  }

  /** The sentence that closes the fallback: the consolidation sentence when
      there are opportunity zones, else the doorstep sentence when there are
      high-risk booths, else the turnout sentence. */
  function ClosingSentence(ctx: SummaryContext): Sentence
  {
    if |ctx.opportunityZones| > 0 then ConsolidateLine(FirstN(ctx.opportunityZones, MaxNamedZones))
    else if |ctx.highRiskBooths| > 0 then DoorstepLine(FirstN(ctx.highRiskBooths, MaxNamedBooths))
    else TurnoutLine(ctx.turnoutSensitivity)
  }

  /** The sentences of `buildFallbackSummary` in the order the source
      pushes them; FallbackSentences states what they are. */
  function FallbackParts(ctx: SummaryContext): seq<Sentence>
  {
    var head := [SeatHealthLine(ctx.seatHealth, ctx.riskCount, ctx.opportunityCount)];
    var swing := if ctx.avgSwing != 0.0 then [SwingLine(ctx.avgSwing)] else [];
    var turnout := [TurnoutLine(ctx.turnoutSensitivity)];
    var doorstep :=
      if |ctx.highRiskBooths| > 0 then [DoorstepLine(FirstN(ctx.highRiskBooths, MaxNamedBooths))] else [];
    var consolidate :=
      if |ctx.opportunityZones| > 0 then [ConsolidateLine(FirstN(ctx.opportunityZones, MaxNamedZones))] else [];
    head + swing + turnout + doorstep + consolidate
  }

  lemma FallbackPartsOrder(ctx: SummaryContext, ss: seq<Sentence>)
    requires ss == FallbackParts(ctx)
    ensures 2 <= |ss| <= 5
    ensures ss[|ss| - 1] == ClosingSentence(ctx)
    ensures ss[0] == SeatHealthLine(ctx.seatHealth, ctx.riskCount, ctx.opportunityCount)
    ensures forall i, j :: 0 <= i < j < |ss| ==> Order(ss[i]) < Order(ss[j])
    ensures (exists i :: 0 <= i < |ss| && ss[i].SwingLine?) <==> ctx.avgSwing != 0.0
    ensures exists i :: 0 <= i < |ss| && ss[i] == TurnoutLine(ctx.turnoutSensitivity)
    ensures (exists i :: 0 <= i < |ss| && ss[i].DoorstepLine?) <==> |ctx.highRiskBooths| > 0
    ensures (exists i :: 0 <= i < |ss| && ss[i].ConsolidateLine?) <==> |ctx.opportunityZones| > 0
  {
    var head := [SeatHealthLine(ctx.seatHealth, ctx.riskCount, ctx.opportunityCount)];
    var swing := if ctx.avgSwing != 0.0 then [SwingLine(ctx.avgSwing)] else [];
    var turnout := [TurnoutLine(ctx.turnoutSensitivity)];
    var doorstep :=
      if |ctx.highRiskBooths| > 0 then [DoorstepLine(FirstN(ctx.highRiskBooths, MaxNamedBooths))] else [];
    assert ss[|head + swing|] == TurnoutLine(ctx.turnoutSensitivity);
    assert |swing| > 0 ==> ss[1].SwingLine?;
    assert |doorstep| > 0 ==> ss[|head + swing + turnout|].DoorstepLine?;
    assert |ctx.opportunityZones| > 0 ==> ss[|ss| - 1].ConsolidateLine?;
    assert |ctx.opportunityZones| == 0 && |doorstep| > 0 ==> ss[|ss| - 1] == doorstep[0];
  }

  lemma FallbackPartsNamed(ctx: SummaryContext, ss: seq<Sentence>)
    requires ss == FallbackParts(ctx)
    ensures forall i :: 0 <= i < |ss| ==>
              && (ss[i].SwingLine? ==> ss[i].swing == ctx.avgSwing)
              && (ss[i].DoorstepLine? ==>
                    0 < |ss[i].booths| <= MaxNamedBooths && ss[i].booths <= ctx.highRiskBooths
                    && |ss[i].booths| == (if |ctx.highRiskBooths| < MaxNamedBooths
                                          then |ctx.highRiskBooths| else MaxNamedBooths))
              && (ss[i].ConsolidateLine? ==>
                    0 < |ss[i].zones| <= MaxNamedZones && ss[i].zones <= ctx.opportunityZones
                    && |ss[i].zones| == (if |ctx.opportunityZones| < MaxNamedZones
                                         then |ctx.opportunityZones| else MaxNamedZones))
  {
  }

  /** The sentences of `buildFallbackSummary`, before rendering. */
  function FallbackSentences(ctx: SummaryContext): (ss: seq<Sentence>)
    ensures 2 <= |ss| <= 5
    ensures ss[|ss| - 1] == ClosingSentence(ctx)
    ensures ss[0] == SeatHealthLine(ctx.seatHealth, ctx.riskCount, ctx.opportunityCount)
    ensures forall i, j :: 0 <= i < j < |ss| ==> Order(ss[i]) < Order(ss[j])
    ensures (exists i :: 0 <= i < |ss| && ss[i].SwingLine?) <==> ctx.avgSwing != 0.0
    ensures exists i :: 0 <= i < |ss| && ss[i] == TurnoutLine(ctx.turnoutSensitivity)
    ensures (exists i :: 0 <= i < |ss| && ss[i].DoorstepLine?) <==> |ctx.highRiskBooths| > 0
    ensures (exists i :: 0 <= i < |ss| && ss[i].ConsolidateLine?) <==> |ctx.opportunityZones| > 0
    ensures forall i :: 0 <= i < |ss| ==>
              && (ss[i].SwingLine? ==> ss[i].swing == ctx.avgSwing)
              && (ss[i].DoorstepLine? ==>
                    0 < |ss[i].booths| <= MaxNamedBooths && ss[i].booths <= ctx.highRiskBooths
                    && |ss[i].booths| == (if |ctx.highRiskBooths| < MaxNamedBooths
                                          then |ctx.highRiskBooths| else MaxNamedBooths))
              && (ss[i].ConsolidateLine? ==>
                    0 < |ss[i].zones| <= MaxNamedZones && ss[i].zones <= ctx.opportunityZones
                    && |ss[i].zones| == (if |ctx.opportunityZones| < MaxNamedZones
                                         then |ctx.opportunityZones| else MaxNamedZones))
  {
    var ss := FallbackParts(ctx);
    FallbackPartsOrder(ctx, ss);
    FallbackPartsNamed(ctx, ss);
    ss
  }

  /** The text of one sentence, as the template literals write it. */
  function Render(s: Sentence, fmt: NumberFormat): string
  {
    match s
    case SeatHealthLine(h, r, o) =>
      "Seat health at " + fmt(h) + "%. " + fmt(r) + " risk booths and " + fmt(o)
      + " opportunity booths identified."
    case SwingLine(v) => "Average swing " + (if v > 0.0 then "+" else "") + fmt(v) + "%."
    case TurnoutLine(t) => "Turnout sensitivity " + fmt(t) + "; marginal booth focus recommended."
    case DoorstepLine(bs) => "Prioritise doorstep engagement in " + Join(bs, ", ") + "."
    case ConsolidateLine(zs) => "Consolidate gains in " + Join(zs, ", ") + "."
  }

  /** A number printed by JavaScript never starts with a plus sign. */
  predicate Unsigned(text: string)
  {
    |text| == 0 || text[0] != '+'
  }

  /** The swing sentence carries a `+` right after "Average swing " exactly
      when the swing is positive. */
  lemma SwingSign(v: real, fmt: NumberFormat)
    requires Unsigned(fmt(v))
    ensures |Render(SwingLine(v), fmt)| > 14
    ensures Render(SwingLine(v), fmt)[..14] == "Average swing "
    ensures Render(SwingLine(v), fmt)[14] == '+' <==> v > 0.0
  {
    var text := Render(SwingLine(v), fmt);
    if v > 0.0 {
      assert text == "Average swing +" + fmt(v) + "%.";
    } else {
      assert text == "Average swing " + fmt(v) + "%.";
      if |fmt(v)| > 0 {
        assert text[14] == fmt(v)[0];
      } else {
        assert text[14] == '%';
      }
    }
  }

  function RenderAll(ss: seq<Sentence>, fmt: NumberFormat): (parts: seq<string>)
    ensures |parts| == |ss|
    ensures forall i :: 0 <= i < |ss| ==> parts[i] == Render(ss[i], fmt)
  {
    seq(|ss|, i requires 0 <= i < |ss| => Render(ss[i], fmt))
  }

  /** `buildFallbackSummary(context)`: the sentences joined by single spaces. */
  function BuildFallbackSummary(ctx: SummaryContext, fmt: NumberFormat): (text: string)
    ensures Render(FallbackSentences(ctx)[0], fmt) <= text
    ensures text[..15] == "Seat health at "
    ensures var parts := RenderAll(FallbackSentences(ctx), fmt);
            |text| == TotalLength(parts) + |parts| - 1
    ensures var parts := RenderAll(FallbackSentences(ctx), fmt);
            forall k :: 0 < k < |parts| ==> text == Join(parts[..k], " ") + " " + Join(parts[k..], " ")
  {
    var ss := FallbackSentences(ctx);
    var parts := RenderAll(ss, fmt);
    JoinShape(parts, " ");
    forall k | 0 < k < |parts|
      ensures Join(parts, " ") == Join(parts[..k], " ") + " " + Join(parts[k..], " ")
    {
      JoinSplit(parts, " ", k);
    }
    SeatHealthOpening(ctx.seatHealth, ctx.riskCount, ctx.opportunityCount, fmt);
    PrefixOfPrefix(parts[0], Join(parts, " "), 15);
    Join(parts, " ")
  }

  lemma SeatHealthOpening(h: real, r: real, o: real, fmt: NumberFormat)
    ensures |Render(SeatHealthLine(h, r, o), fmt)| >= 15
    ensures Render(SeatHealthLine(h, r, o), fmt)[..15] == "Seat health at "
  {
    var tail := fmt(h) + "%. " + fmt(r) + " risk booths and " + fmt(o) + " opportunity booths identified.";
    assert Render(SeatHealthLine(h, r, o), fmt) == "Seat health at " + tail;
  }

  lemma PrefixOfPrefix(a: string, b: string, n: nat)
    requires a <= b && n <= |a|
    ensures b[..n] == a[..n]
  {
  }

  /** The text of a fallback summary is never empty. */
  lemma FallbackNotEmpty(ctx: SummaryContext, fmt: NumberFormat)
    ensures |BuildFallbackSummary(ctx, fmt)| > 0
  {
  }

  /** The fallback ends with its closing sentence. */
  lemma FallbackEnding(ctx: SummaryContext, fmt: NumberFormat)
    ensures var text := BuildFallbackSummary(ctx, fmt);
            var last := Render(ClosingSentence(ctx), fmt);
            |last| <= |text| && text[|text| - |last|..] == last
  {
    var ss := FallbackSentences(ctx);
    var parts := RenderAll(ss, fmt);
    JoinShape(parts, " ");
    assert parts[|parts| - 1] == Render(ClosingSentence(ctx), fmt);
  }

  // ---------------------------------------------------------------------
  // generateStrategicSummary: the fallback choice
  // ---------------------------------------------------------------------

  /** What the completion request produced: it threw, or it answered with
      the content of its first choice, which may be absent. */
  datatype CompletionOutcome = Threw | Completed(content: Option<string>)

  /** The characters `String.prototype.trim` removes: the WhiteSpace and
      LineTerminator code points of ECMA-262, section 12.2 and 12.3. */
  predicate IsJsSpace(c: char)
  {
    || c == '\U{0009}' || c == '\U{000B}' || c == '\U{000C}' || c == '\U{FEFF}'
    || c == '\U{0020}' || c == '\U{00A0}' || c == '\U{1680}' || ('\U{2000}' <= c <= '\U{200A}')
    || c == '\U{202F}' || c == '\U{205F}' || c == '\U{3000}'
    || c == '\U{000A}' || c == '\U{000D}' || c == '\U{2028}' || c == '\U{2029}'
  }

  /** Number of leading trimmable characters. */
  function LeadingSpace(s: string): (k: nat)
    ensures k <= |s|
    ensures forall i :: 0 <= i < k ==> IsJsSpace(s[i])
    ensures k < |s| ==> !IsJsSpace(s[k])
  {
    if |s| == 0 || !IsJsSpace(s[0]) then 0 else 1 + LeadingSpace(s[1..])
  }

  /** Number of trailing trimmable characters. */
  function TrailingSpace(s: string): (k: nat)
    ensures k <= |s|
    ensures forall i :: |s| - k <= i < |s| ==> IsJsSpace(s[i])
    ensures k < |s| ==> !IsJsSpace(s[|s| - 1 - k])
  {
    if |s| == 0 || !IsJsSpace(s[|s| - 1]) then 0 else 1 + TrailingSpace(s[..|s| - 1])
  }

  /** `s.trim()`. */
  function Trim(s: string): (t: string)
    ensures |t| <= |s|
    ensures |t| > 0 ==> !IsJsSpace(t[0]) && !IsJsSpace(t[|t| - 1])
    ensures |t| == 0 <==> forall i :: 0 <= i < |s| ==> IsJsSpace(s[i])
    ensures |t| > 0 ==> LeadingSpace(s) + |t| + TrailingSpace(s) == |s|
    ensures forall i :: 0 <= i < |t| ==> LeadingSpace(s) + i < |s| && t[i] == s[LeadingSpace(s) + i]
  {
    var a := LeadingSpace(s);
    if a == |s| then
      []
    else
      var b := TrailingSpace(s);
      assert !IsJsSpace(s[a]);
      assert b < |s| - a;
      s[a..|s| - b]
  }

  /** Trimming twice is trimming once. */
  lemma TrimIdempotent(s: string)
    ensures Trim(Trim(s)) == Trim(s)
  {
    var t := Trim(s);
    if |t| > 0 {
      assert LeadingSpace(t) == 0;
      assert TrailingSpace(t) == 0;
      assert t[0..|t|] == t;
    }
  }

  /** No key (unset, or the empty string, which is falsy), a thrown request
      or an answer without content. */
  predicate UsesFallback(apiKey: Option<string>, outcome: CompletionOutcome)
  {
    apiKey.None? || apiKey.value == "" || outcome.Threw? || outcome.content.None?
  }

  /** `generateStrategicSummary`: the fallback when there is no API key (an
      unset or empty variable), when the request throws, or when the answer
      has no content; otherwise the trimmed content. */
  function GenerateStrategicSummary(
    apiKey: Option<string>,
    outcome: CompletionOutcome,
    ctx: SummaryContext,
    fmt: NumberFormat): (text: string)
    ensures UsesFallback(apiKey, outcome) ==> text == BuildFallbackSummary(ctx, fmt)
    ensures !UsesFallback(apiKey, outcome) ==> text == Trim(outcome.content.value)
  {
    if apiKey.None? || apiKey.value == "" then BuildFallbackSummary(ctx, fmt)
    else
      match outcome
      case Threw => BuildFallbackSummary(ctx, fmt)
      case Completed(content) =>
        match content
        case None => BuildFallbackSummary(ctx, fmt)
        case Some(c) => Trim(c)
  }

  /** An answer of only white space is trimmed to the empty string, which
      `??` does not replace: the summary comes back empty instead of the
      fallback. */
  lemma BlankAnswerGivesEmptySummary(ctx: SummaryContext, fmt: NumberFormat)
    ensures GenerateStrategicSummary(Some("key"), Completed(Some(" \n")), ctx, fmt) == ""
    ensures BuildFallbackSummary(ctx, fmt) != ""
  {
    assert IsJsSpace(" \n"[0]) && IsJsSpace(" \n"[1]);
  }

  /** The evidently intended choice: fall back also when the trimmed answer
      is empty, as `||` instead of `??` would. */
  function GenerateStrategicSummaryOrFallback(
    apiKey: Option<string>,
    outcome: CompletionOutcome,
    ctx: SummaryContext,
    fmt: NumberFormat): (text: string)
    ensures |text| > 0
    ensures UsesFallback(apiKey, outcome) ==> text == BuildFallbackSummary(ctx, fmt)
    ensures !UsesFallback(apiKey, outcome) ==>
              text == (if Trim(outcome.content.value) == "" then BuildFallbackSummary(ctx, fmt)
                       else Trim(outcome.content.value))
  {
    var answer := GenerateStrategicSummary(apiKey, outcome, ctx, fmt);
    if answer == "" then BuildFallbackSummary(ctx, fmt) else answer
  }
}

=== FILE: booth_health.dfy ===
/** The booth health index engine: one booth's raw election numbers become a
    weighted 0-100 health index, rounded percentages and a zone label. */
module BoothHealth {
  import opened Nullable
  import opened Numeric

  /** One booth's latest election observation. Counts are JavaScript numbers. */
  datatype BoothElectionRow = BoothElectionRow(
    booth_id: string,
    booth_number: string,
    our_votes: real,
    opponent_votes: real,
    total_turnout: real,
    voter_count: real,
    swing_pct: Option<real>,
    region: Option<string>,
    constituency_id: Option<string>)

  datatype BoothHealthResult = BoothHealthResult(
    booth_id: string,
    booth_number: string,
    health_index: real,
    swing_pct: real,
    turnout_pct: real,
    vote_share_pct: real,
    zone: string,
    constituency_id: Option<string>,
    voter_count: real)

  const SwingWeight: real := 0.4
  const TurnoutWeight: real := 0.3
  const VoteShareWeight: real := 0.3

  /** Swing clamped to [-20, 20] and stretched linearly onto [0, 100]. */
  function SwingToScore(swing: real): (score: real)
    ensures 0.0 <= score <= 100.0
    ensures swing <= -20.0 ==> score == 0.0
    ensures swing >= 20.0 ==> score == 100.0
    ensures swing == 0.0 ==> score == 50.0
    ensures -20.0 <= swing <= 20.0 ==> score == 50.0 + 2.5 * swing
  {
    50.0 + (Max(-20.0, Min(20.0, swing)) / 20.0) * 50.0
  }

  lemma SwingToScoreMonotone(a: real, b: real)
    requires a <= b
    ensures SwingToScore(a) <= SwingToScore(b)
  {
  }

  function TurnoutToScore(turnoutPct: real): (score: real)
    ensures 0.0 <= score <= 100.0
    ensures 0.0 <= turnoutPct <= 100.0 ==> score == turnoutPct
    ensures turnoutPct <= 0.0 ==> score == 0.0
    ensures turnoutPct >= 100.0 ==> score == 100.0
  {
    Min(100.0, Max(0.0, turnoutPct))
  }

  function VoteShareToScore(voteSharePct: real): (score: real)
    ensures 0.0 <= score <= 100.0
    ensures 0.0 <= voteSharePct <= 100.0 ==> score == voteSharePct
    ensures voteSharePct <= 0.0 ==> score == 0.0
    ensures voteSharePct >= 100.0 ==> score == 100.0
  {
    Min(100.0, Max(0.0, voteSharePct))
  }

  /** Our share of the two-party vote, in percent. A zero total becomes 1
      (`total || 1`), so an empty booth has share 0 instead of a division by
      zero; a non-zero total is used as it is. */
  function VoteSharePct(row: BoothElectionRow): real
  {
    var total := row.our_votes + row.opponent_votes;
    var divisor := if total == 0.0 then 1.0 else total;
    row.our_votes / divisor * 100.0
  }

  /** Turnout in percent of the electorate; 0 when the voter count is not
      positive. */
  function TurnoutPct(row: BoothElectionRow): real
  {
    if row.voter_count > 0.0 then row.total_turnout / row.voter_count * 100.0 else 0.0
  }

  /** The weighted blend of the three clamped sub-scores, before rounding:
      40 percent swing, 30 percent turnout, 30 percent vote share. */
  function RawHealth(row: BoothElectionRow): (h: real)
    ensures 0.0 <= h <= 100.0
    ensures h == 0.4 * SwingToScore(row.swing_pct.OrElse(0.0))
               + 0.3 * TurnoutToScore(TurnoutPct(row))
               + 0.3 * VoteShareToScore(VoteSharePct(row))
  {
    SwingToScore(row.swing_pct.OrElse(0.0)) * SwingWeight
    + TurnoutToScore(TurnoutPct(row)) * TurnoutWeight
    + VoteShareToScore(VoteSharePct(row)) * VoteShareWeight
  }

  /** Away from the clamps the index is linear in the three inputs: a swing
      point is worth one index point, a turnout or vote-share point 0.3. */
  lemma RawHealthClosedForm(row: BoothElectionRow)
    requires -20.0 <= row.swing_pct.OrElse(0.0) <= 20.0
    requires 0.0 <= TurnoutPct(row) <= 100.0
    requires 0.0 <= VoteSharePct(row) <= 100.0
    ensures RawHealth(row) == 20.0 + row.swing_pct.OrElse(0.0)
                              + 0.3 * TurnoutPct(row) + 0.3 * VoteSharePct(row)
  {
  }

  function ComputeBoothHealth(row: BoothElectionRow): (r: BoothHealthResult)
    ensures 0.0 <= r.health_index <= 100.0
    ensures r.health_index == RoundTenth(RawHealth(row))
    ensures r.swing_pct == row.swing_pct.OrElse(0.0)
    ensures r.turnout_pct == RoundTenth(TurnoutPct(row))
    ensures r.vote_share_pct == RoundTenth(VoteSharePct(row))
    ensures (row.our_votes >= 0.0 && row.opponent_votes >= 0.0
             && row.our_votes + row.opponent_votes == 0.0) ==> r.vote_share_pct == 0.0
    ensures row.voter_count <= 0.0 ==> r.turnout_pct == 0.0
    ensures r.zone == row.region.OrElse("Unknown")
    ensures r.booth_id == row.booth_id && r.booth_number == row.booth_number
    ensures r.constituency_id == row.constituency_id && r.voter_count == row.voter_count
  {
    var h := RawHealth(row);
    RoundTenthWithin(h, 0, 100);
    BoothHealthResult(
      booth_id := row.booth_id,
      booth_number := row.booth_number,
      health_index := RoundTenth(h),
      swing_pct := row.swing_pct.OrElse(0.0),
      turnout_pct := RoundTenth(TurnoutPct(row)),
      vote_share_pct := RoundTenth(VoteSharePct(row)),
      zone := row.region.OrElse("Unknown"),
      constituency_id := row.constituency_id,
      voter_count := row.voter_count)
  }

  /** Raising only the swing never lowers the health index. */
  lemma HealthMonotoneInSwing(row: BoothElectionRow, s1: real, s2: real)
    requires s1 <= s2
    ensures ComputeBoothHealth(row.(swing_pct := Some(s1))).health_index
            <= ComputeBoothHealth(row.(swing_pct := Some(s2))).health_index
  {
    SwingToScoreMonotone(s1, s2);
    RoundTenthMonotone(RawHealth(row.(swing_pct := Some(s1))), RawHealth(row.(swing_pct := Some(s2))));
  }

  /** A missing swing is scored exactly like a swing of 0. */
  lemma MissingSwingIsZero(row: BoothElectionRow)
    ensures ComputeBoothHealth(row.(swing_pct := None))
            == ComputeBoothHealth(row.(swing_pct := Some(0.0)))
  {
  }

  /** The reported turnout is not clamped: more ballots than voters reports
      more than 100 percent, while the turnout sub-score stops at 100. */
  lemma TurnoutPctIsNotClamped()
    ensures var row := BoothElectionRow("b1", "1", 0.0, 0.0, 2200.0, 2000.0, None, None, None);
            ComputeBoothHealth(row).turnout_pct == 110.0
            && TurnoutToScore(TurnoutPct(row)) == 100.0
  {
    var row := BoothElectionRow("b1", "1", 0.0, 0.0, 2200.0, 2000.0, None, None, None);
    assert TurnoutPct(row) == 110.0;
    assert Round(1100.0) == 1100;
  }

  /** The worked example: 1200 of 2000 votes, 1600 of 2000 voters, swing 5
      give vote share 60, turnout 80, swing score 62.5 and health 67. */
  lemma WorkedExample()
    ensures var r := ComputeBoothHealth(BoothElectionRow(
              "b1", "12", 1200.0, 800.0, 1600.0, 2000.0, Some(5.0), Some("North"), None));
            r.vote_share_pct == 60.0 && r.turnout_pct == 80.0
            && r.health_index == 67.0 && r.zone == "North"
  {
    var row := BoothElectionRow("b1", "12", 1200.0, 800.0, 1600.0, 2000.0, Some(5.0), Some("North"), None);
    assert VoteSharePct(row) == 60.0;
    assert TurnoutPct(row) == 80.0;
    assert SwingToScore(5.0) == 62.5;
    assert RawHealth(row) == 67.0;
    assert Round(600.0) == 600 && Round(800.0) == 800 && Round(670.0) == 670;
  }

  /** `rows.map(computeBoothHealth)`. */
  function ComputeBoothHealthBatch(rows: seq<BoothElectionRow>): (rs: seq<BoothHealthResult>)
    ensures |rs| == |rows|
    ensures forall i :: 0 <= i < |rows| ==> rs[i] == ComputeBoothHealth(rows[i])
  {
    if |rows| == 0 then [] else [ComputeBoothHealth(rows[0])] + ComputeBoothHealthBatch(rows[1..])
  }

  /** Every index a batch produces lies in [0, 100]. */
  lemma BatchHealthInRange(rows: seq<BoothElectionRow>)
    ensures forall r :: r in ComputeBoothHealthBatch(rows) ==> 0.0 <= r.health_index <= 100.0
  {
  }

  datatype Classification = Risk | Neutral | Opportunity

  const RiskThreshold: real := 50.0
  const OpportunityThreshold: real := 70.0

  function ClassifyBooth(health: real): (c: Classification)
    ensures c == Risk <==> health < RiskThreshold
    ensures c == Opportunity <==> health >= OpportunityThreshold
    ensures c == Neutral <==> RiskThreshold <= health < OpportunityThreshold
  {
    if health < RiskThreshold then Risk
    else if health >= OpportunityThreshold then Opportunity
    else Neutral
  }

  function Rank(c: Classification): nat
  {
    match c
    case Risk => 0
    case Neutral => 1
    case Opportunity => 2
  }

  /** A healthier booth is never classified lower. */
  lemma ClassifyMonotone(h1: real, h2: real)
    requires h1 <= h2
    ensures Rank(ClassifyBooth(h1)) <= Rank(ClassifyBooth(h2))
  {
  }

  lemma ClassifyBoundaries()
    ensures ClassifyBooth(49.9) == Risk
    ensures ClassifyBooth(50.0) == Neutral
    ensures ClassifyBooth(69.9) == Neutral
    ensures ClassifyBooth(70.0) == Opportunity
  {
  }
}

=== FILE: booth_service.dfy ===
/** The booth service: joining the fetched election, booth and constituency
    rows into health results, and the two booth-list views built from them
    (high-risk booths and opportunity clusters). The queries themselves are
    not modelled; their results are the inputs. */
module BoothService {
  import opened Nullable
  import opened Numeric
  import opened Seqs
  import opened OrderedMap
  import opened BoothHealth
  import DashboardAnalytics

  // ---------------------------------------------------------------------
  // getBoothsWithHealth: the in-memory join
  // ---------------------------------------------------------------------

  /** A row of the election_data query, which lists the newest election year
      first. Null columns are None. */
  datatype ElectionRecord = ElectionRecord(
    booth_id: string,
    our_votes: Option<real>,
    opponent_votes: Option<real>,
    total_turnout: Option<real>,
    swing_pct: Option<real>)

  /** A row of the booths query. */
  datatype BoothRecord = BoothRecord(
    id: string,
    booth_number: string,
    voter_count: Option<real>,
    constituency_id: string)

  /** A row of the constituencies query. */
  datatype ConstituencyRecord = ConstituencyRecord(id: string, region: Option<string>)

  /** What the booth map keeps per booth id. */
  datatype BoothInfo = BoothInfo(booth_number: string, voter_count: real, constituency_id: string)

  type BoothMap = seq<Entry<string, BoothInfo>>
  type RegionMap = seq<Entry<string, Option<string>>>
  type LatestMap = seq<Entry<string, ElectionRecord>>

  /** `if (constituencyId)`: an absent or empty id means no filtering. */
  predicate Filtering(cid: Option<string>) {
    cid.Some? && cid.value != ""
  }

  /** The entries of the booth map, with a null voter count read as 0. */
  function BoothEntries(boothData: seq<BoothRecord>): (es: seq<Entry<string, BoothInfo>>)
    ensures |es| == |boothData|
    ensures forall i :: 0 <= i < |boothData| ==>
              es[i] == Entry(boothData[i].id,
                             BoothInfo(boothData[i].booth_number, boothData[i].voter_count.OrElse(0.0),
                                       boothData[i].constituency_id))
  {
    seq(|boothData|, i requires 0 <= i < |boothData| =>
      Entry(boothData[i].id,
            BoothInfo(boothData[i].booth_number, boothData[i].voter_count.OrElse(0.0), boothData[i].constituency_id)))
  }

  /** `new Map(boothData.map(...))`. */
  function MakeBoothMap(boothData: seq<BoothRecord>): BoothMap
  {
    FromEntries(BoothEntries(boothData))
  }

  /** `new Map(constData.map(c => [c.id, c.region ?? null]))`. */
  function MakeRegionMap(constData: seq<ConstituencyRecord>): RegionMap
  {
    FromEntries(seq(|constData|, i requires 0 <= i < |constData| =>
      Entry(constData[i].id, constData[i].region)))
  }

  /** `boothMap.get(bid)?.constituency_id === constituencyId`. */
  predicate InConstituency(boothMap: BoothMap, bid: string, cid: string) {
    var b := Get(boothMap, bid);
    b.Some? && b.value.constituency_id == cid
  }

  /** Whether rows of booth `bid` survive the constituency filter. */
  predicate Keep(boothMap: BoothMap, cid: Option<string>, bid: string) {
    !Filtering(cid) || InConstituency(boothMap, bid, cid.value)
  }

  function KeepPred(boothMap: BoothMap, cid: Option<string>): string -> bool
  {
    bid => Keep(boothMap, cid, bid)
  }

  function HasBoothPred(boothMap: BoothMap): string -> bool
  {
    bid => Has(boothMap, bid)
  }

  /** One pass of the loop over the election rows: remember the row if its
      booth has none yet, then drop the booth again if it fails the filter. */
  function LatestStep(m: LatestMap, row: ElectionRecord, boothMap: BoothMap, cid: Option<string>): LatestMap
  {
    var bid := row.booth_id;
    var m1 := if Has(m, bid) then m else Set(m, bid, row);
    if Filtering(cid) && !InConstituency(boothMap, bid, cid.value) then Delete(m1, bid) else m1
  }

  /** The `latestByBooth` map after the loop over `rows`. */
  function LatestByBooth(rows: seq<ElectionRecord>, boothMap: BoothMap, cid: Option<string>): LatestMap
  {
    if |rows| == 0 then []
    else LatestStep(LatestByBooth(rows[..|rows| - 1], boothMap, cid), rows[|rows| - 1], boothMap, cid)
  }

  function RecordIds(rows: seq<ElectionRecord>): (ids: seq<string>)
    ensures |ids| == |rows|
    ensures forall i :: 0 <= i < |rows| ==> ids[i] == rows[i].booth_id
  {
    seq(|rows|, i requires 0 <= i < |rows| => rows[i].booth_id)
  }

  /** The first row of booth `bid` in the query order, i.e. its latest year. */
  function FirstRowFor(rows: seq<ElectionRecord>, bid: string): (r: Option<ElectionRecord>)
    ensures r.Some? <==> bid in RecordIds(rows)
    ensures r.Some? ==> r.value in rows && r.value.booth_id == bid
  {
    var ids := RecordIds(rows);
    if bid in ids then Some(rows[FirstIndex(ids, bid)]) else None
  }

  /** Adding a row at the end changes no booth's first row except that of a
      booth seen for the first time. */
  lemma FirstRowForSnoc(rows: seq<ElectionRecord>, x: ElectionRecord, bid: string)
    ensures FirstRowFor(rows + [x], bid)
            == if bid in RecordIds(rows) then FirstRowFor(rows, bid)
               else if bid == x.booth_id then Some(x) else None
  {
    var ids := RecordIds(rows);
    assert RecordIds(rows + [x]) == ids + [x.booth_id];
    if bid in ids + [x.booth_id] {
      FirstIndexPrefix(ids, [x.booth_id], bid);
    }
  }

  /** What the loop has established after the rows `rows`: for every booth
      that passes the filter its first row, the booths in the order they
      first appear. */
  predicate LatestInvariant(m: LatestMap, rows: seq<ElectionRecord>, boothMap: BoothMap, cid: Option<string>)
  {
    && Valid(m)
    && Keys(m) == Filter(FirstSeen(RecordIds(rows)), KeepPred(boothMap, cid))
    && forall i :: 0 <= i < |m| ==> FirstRowFor(rows, m[i].key) == Some(m[i].value)
  }

  lemma FirstSeenIdsSnoc(rows: seq<ElectionRecord>, x: ElectionRecord)
    ensures RecordIds(rows + [x]) == RecordIds(rows) + [x.booth_id]
    ensures FirstSeen(RecordIds(rows + [x]))
            == if x.booth_id in FirstSeen(RecordIds(rows)) then FirstSeen(RecordIds(rows))
               else FirstSeen(RecordIds(rows)) + [x.booth_id]
  {
    var rows' := rows + [x];
    assert RecordIds(rows') == RecordIds(rows) + [x.booth_id];
    assert RecordIds(rows')[..|rows'| - 1] == RecordIds(rows);
  }

  /** Booths already in the map keep their first row when a row is added. */
  lemma KeptRowsStayFirst(m: LatestMap, rows: seq<ElectionRecord>, x: ElectionRecord, boothMap: BoothMap, cid: Option<string>)
    requires LatestInvariant(m, rows, boothMap, cid)
    ensures forall i :: 0 <= i < |m| ==> FirstRowFor(rows + [x], m[i].key) == Some(m[i].value)
  {
    var ids := RecordIds(rows);
    FirstSeenMembers(ids);
    forall i | 0 <= i < |m|
      ensures FirstRowFor(rows + [x], m[i].key) == Some(m[i].value)
    {
      assert Keys(m)[i] == m[i].key;
      FilterMembers(FirstSeen(ids), KeepPred(boothMap, cid), m[i].key);
      FirstRowForSnoc(rows, x, m[i].key);
    }
  }

  lemma LatestStepSeen(m: LatestMap, rows: seq<ElectionRecord>, x: ElectionRecord, boothMap: BoothMap, cid: Option<string>)
    requires LatestInvariant(m, rows, boothMap, cid)
    requires Has(m, x.booth_id)
    ensures LatestInvariant(LatestStep(m, x, boothMap, cid), rows + [x], boothMap, cid)
  {
    var ids := RecordIds(rows);
    FirstSeenIdsSnoc(rows, x);
    FirstSeenMembers(ids);
    FilterMembers(FirstSeen(ids), KeepPred(boothMap, cid), x.booth_id);
    KeptRowsStayFirst(m, rows, x, boothMap, cid);
    assert LatestStep(m, x, boothMap, cid) == m;
  }

  lemma LatestStepNewKept(m: LatestMap, rows: seq<ElectionRecord>, x: ElectionRecord, boothMap: BoothMap, cid: Option<string>)
    requires LatestInvariant(m, rows, boothMap, cid)
    requires !Has(m, x.booth_id) && Keep(boothMap, cid, x.booth_id)
    ensures LatestInvariant(LatestStep(m, x, boothMap, cid), rows + [x], boothMap, cid)
  {
    var b := x.booth_id;
    var p := KeepPred(boothMap, cid);
    var ids := RecordIds(rows);
    assert b !in ids by {
      FirstSeenMembers(ids);
      FilterMembers(FirstSeen(ids), p, b);
    }
    assert LatestStep(m, x, boothMap, cid) == m + [Entry(b, x)] by {
      SetNewKey(m, b, x);
    }
    NewKeptKeys(m, rows, x, p);
    KeptRowsStayFirst(m, rows, x, boothMap, cid);
    NewKeptFirstRows(m, rows, x);
  }

  /** Appending a kept booth seen for the first time extends both the map's
      keys and the filtered first-seen ids by that booth. */
  lemma NewKeptKeys(m: LatestMap, rows: seq<ElectionRecord>, x: ElectionRecord, p: string -> bool)
    requires Keys(m) == Filter(FirstSeen(RecordIds(rows)), p)
    requires x.booth_id !in RecordIds(rows) && p(x.booth_id)
    ensures Keys(m + [Entry(x.booth_id, x)]) == Filter(FirstSeen(RecordIds(rows + [x])), p)
  {
    var ids := RecordIds(rows);
    var m' := m + [Entry(x.booth_id, x)];
    assert Keys(m') == Keys(m) + [x.booth_id];
    FirstSeenIdsSnoc(rows, x);
    FirstSeenMembers(ids);
    FilterSnoc(FirstSeen(ids), x.booth_id, p);
  }

  /** After appending the first row of a new booth, every entry still holds
      its booth's first row. */
  lemma NewKeptFirstRows(m: LatestMap, rows: seq<ElectionRecord>, x: ElectionRecord)
    requires x.booth_id !in RecordIds(rows)
    requires forall i :: 0 <= i < |m| ==> FirstRowFor(rows + [x], m[i].key) == Some(m[i].value)
    ensures forall i :: 0 <= i < |m| + 1 ==>
              FirstRowFor(rows + [x], (m + [Entry(x.booth_id, x)])[i].key) == Some((m + [Entry(x.booth_id, x)])[i].value)
  {
    var m' := m + [Entry(x.booth_id, x)];
    forall i | 0 <= i < |m'|
      ensures FirstRowFor(rows + [x], m'[i].key) == Some(m'[i].value)
    {
      if i < |m| {
        assert m'[i] == m[i];
      } else {
        FirstRowForSnoc(rows, x, x.booth_id);
      }
    }
  }

  lemma LatestStepNewDropped(m: LatestMap, rows: seq<ElectionRecord>, x: ElectionRecord, boothMap: BoothMap, cid: Option<string>)
    requires LatestInvariant(m, rows, boothMap, cid)
    requires !Has(m, x.booth_id) && !Keep(boothMap, cid, x.booth_id)
    ensures LatestInvariant(LatestStep(m, x, boothMap, cid), rows + [x], boothMap, cid)
  {
    var b := x.booth_id;
    var ids := RecordIds(rows);
    FirstSeenIdsSnoc(rows, x);
    FilterSnoc(FirstSeen(ids), b, KeepPred(boothMap, cid));
    KeptRowsStayFirst(m, rows, x, boothMap, cid);
    SetNewKey(m, b, x);
    DeleteLast(m, b, x);
    assert LatestStep(m, x, boothMap, cid) == m;
  }

  /** The loop keeps, for every booth that passes the filter, its first row,
      with the booths in the order they first appear. */
  lemma {:induction false} LatestByBoothSpec(rows: seq<ElectionRecord>, boothMap: BoothMap, cid: Option<string>)
    ensures LatestInvariant(LatestByBooth(rows, boothMap, cid), rows, boothMap, cid)
  {
    if |rows| > 0 {
      LatestByBoothSpec(rows[..|rows| - 1], boothMap, cid);
      LatestStepPreserves(LatestByBooth(rows[..|rows| - 1], boothMap, cid), rows, boothMap, cid);
    }
  }

  /** One pass of the loop, over the last row, keeps the invariant, whichever
      branch it takes. */
  lemma LatestStepPreserves(m: LatestMap, rows: seq<ElectionRecord>, boothMap: BoothMap, cid: Option<string>)
    requires |rows| > 0
    requires LatestInvariant(m, rows[..|rows| - 1], boothMap, cid)
    ensures LatestInvariant(LatestStep(m, rows[|rows| - 1], boothMap, cid), rows, boothMap, cid)
  {
    var x := rows[|rows| - 1];
    assert rows == rows[..|rows| - 1] + [x];
    LatestStepOnSnoc(m, rows[..|rows| - 1], x, boothMap, cid);
  }

  lemma LatestStepOnSnoc(m: LatestMap, rows: seq<ElectionRecord>, x: ElectionRecord, boothMap: BoothMap, cid: Option<string>)
    requires LatestInvariant(m, rows, boothMap, cid)
    ensures LatestInvariant(LatestStep(m, x, boothMap, cid), rows + [x], boothMap, cid)
  {
    if Has(m, x.booth_id) {
      LatestStepSeen(m, rows, x, boothMap, cid);
    } else if Keep(boothMap, cid, x.booth_id) {
      LatestStepNewKept(m, rows, x, boothMap, cid);
    } else {
      LatestStepNewDropped(m, rows, x, boothMap, cid);
    }
  }

  /** `regionMap.get(id) ?? null`. */
  function RegionOf(regionMap: RegionMap, constituencyId: string): Option<string>
  {
    match Get(regionMap, constituencyId)
    case Some(region) => region
    case None => None
  }

  /** The health-engine input for one election row and its booth: null vote
      and turnout columns read as 0, the voter count and constituency come
      from the booth, the region from the booth's constituency. */
  function Joined(r: ElectionRecord, boothMap: BoothMap, regionMap: RegionMap): (row: BoothElectionRow)
    requires Has(boothMap, r.booth_id)
    ensures row.booth_id == r.booth_id
    ensures row.constituency_id == Some(Get(boothMap, r.booth_id).value.constituency_id)
    ensures row.our_votes == (if r.our_votes.Some? then r.our_votes.value else 0.0)
    ensures row.opponent_votes == (if r.opponent_votes.Some? then r.opponent_votes.value else 0.0)
    ensures row.total_turnout == (if r.total_turnout.Some? then r.total_turnout.value else 0.0)
    ensures row.swing_pct == r.swing_pct
    ensures var booth := Get(boothMap, r.booth_id).value;
            && row.booth_number == booth.booth_number
            && row.voter_count == booth.voter_count
            && row.region == RegionOf(regionMap, booth.constituency_id)
  {
    var booth := Get(boothMap, r.booth_id).value;
    BoothElectionRow(
      booth_id := r.booth_id,
      booth_number := booth.booth_number,
      our_votes := r.our_votes.OrElse(0.0),
      opponent_votes := r.opponent_votes.OrElse(0.0),
      total_turnout := r.total_turnout.OrElse(0.0),
      voter_count := booth.voter_count,
      swing_pct := r.swing_pct,
      region := RegionOf(regionMap, booth.constituency_id),
      constituency_id := Some(booth.constituency_id))
  }

  function RowIds(rows: seq<BoothElectionRow>): (ids: seq<string>)
    ensures |ids| == |rows|
    ensures forall i :: 0 <= i < |rows| ==> ids[i] == rows[i].booth_id
  {
    seq(|rows|, i requires 0 <= i < |rows| => rows[i].booth_id)
  }

  /** The mapping step and the null filter: rows whose booth has no booth
      record are dropped, the others joined in order. */
  function JoinRows(records: seq<ElectionRecord>, boothMap: BoothMap, regionMap: RegionMap): (rows: seq<BoothElectionRow>)
  {
    if |records| == 0 then []
    else if Has(boothMap, records[0].booth_id) then
      [Joined(records[0], boothMap, regionMap)] + JoinRows(records[1..], boothMap, regionMap)
    else
      JoinRows(records[1..], boothMap, regionMap)
  }

  /** Exactly the records with a booth record survive the join, in order,
      and each joined row comes from one of them. */
  lemma JoinRowsSpec(records: seq<ElectionRecord>, boothMap: BoothMap, regionMap: RegionMap)
    ensures RowIds(JoinRows(records, boothMap, regionMap)) == Filter(RecordIds(records), HasBoothPred(boothMap))
    ensures forall row :: row in JoinRows(records, boothMap, regionMap) ==>
              exists r :: r in records && Has(boothMap, r.booth_id) && row == Joined(r, boothMap, regionMap)
  {
    JoinRowsIds(records, boothMap, regionMap);
    JoinRowsFrom(records, boothMap, regionMap);
  }

  lemma {:induction false} JoinRowsIds(records: seq<ElectionRecord>, boothMap: BoothMap, regionMap: RegionMap)
    ensures RowIds(JoinRows(records, boothMap, regionMap)) == Filter(RecordIds(records), HasBoothPred(boothMap))
  {
    if |records| > 0 {
      JoinRowsIds(records[1..], boothMap, regionMap);
      if Has(boothMap, records[0].booth_id) {
        JoinRowsIdsKept(records, boothMap, regionMap);
      } else {
        JoinRowsIdsDropped(records, boothMap, regionMap);
      }
    }
  }

  /** The step of JoinRowsIds for a record whose booth has a booth record. */
  lemma JoinRowsIdsKept(records: seq<ElectionRecord>, boothMap: BoothMap, regionMap: RegionMap)
    requires |records| > 0 && Has(boothMap, records[0].booth_id)
    requires RowIds(JoinRows(records[1..], boothMap, regionMap)) == Filter(RecordIds(records[1..]), HasBoothPred(boothMap))
    ensures RowIds(JoinRows(records, boothMap, regionMap)) == Filter(RecordIds(records), HasBoothPred(boothMap))
  {
    var rest := JoinRows(records[1..], boothMap, regionMap);
    var row := Joined(records[0], boothMap, regionMap);
    RecordIdsCons(records);
    FilterCons(records[0].booth_id, RecordIds(records[1..]), HasBoothPred(boothMap));
    assert JoinRows(records, boothMap, regionMap) == [row] + rest;
    RowIdsCons(row, rest);
  }

  /** The step of JoinRowsIds for a record whose booth has no booth record. */
  lemma JoinRowsIdsDropped(records: seq<ElectionRecord>, boothMap: BoothMap, regionMap: RegionMap)
    requires |records| > 0 && !Has(boothMap, records[0].booth_id)
    requires RowIds(JoinRows(records[1..], boothMap, regionMap)) == Filter(RecordIds(records[1..]), HasBoothPred(boothMap))
    ensures RowIds(JoinRows(records, boothMap, regionMap)) == Filter(RecordIds(records), HasBoothPred(boothMap))
  {
    RecordIdsCons(records);
    FilterCons(records[0].booth_id, RecordIds(records[1..]), HasBoothPred(boothMap));
    assert JoinRows(records, boothMap, regionMap) == JoinRows(records[1..], boothMap, regionMap);
  }

  lemma RecordIdsCons(records: seq<ElectionRecord>)
    requires |records| > 0
    ensures RecordIds(records) == [records[0].booth_id] + RecordIds(records[1..])
  {
  }

  lemma RowIdsCons(row: BoothElectionRow, rest: seq<BoothElectionRow>)
    ensures RowIds([row] + rest) == [row.booth_id] + RowIds(rest)
  {
  }

  lemma {:induction false} JoinRowsFrom(records: seq<ElectionRecord>, boothMap: BoothMap, regionMap: RegionMap)
    ensures forall row :: row in JoinRows(records, boothMap, regionMap) ==>
              exists r :: r in records && Has(boothMap, r.booth_id) && row == Joined(r, boothMap, regionMap)
  {
    if |records| > 0 {
      JoinRowsFrom(records[1..], boothMap, regionMap);
      var rest := JoinRows(records[1..], boothMap, regionMap);
      forall r | r in records[1..]
        ensures r in records
      {
      }
      if Has(boothMap, records[0].booth_id) {
        assert JoinRows(records, boothMap, regionMap) == [Joined(records[0], boothMap, regionMap)] + rest;
      } else {
        assert JoinRows(records, boothMap, regionMap) == rest;
      }
    }
  }

  function ResultIds(rs: seq<BoothHealthResult>): (ids: seq<string>)
    ensures |ids| == |rs|
    ensures forall i :: 0 <= i < |rs| ==> ids[i] == rs[i].booth_id
  {
    seq(|rs|, i requires 0 <= i < |rs| => rs[i].booth_id)
  }

  /** `res` is the health of booth `res.booth_id` computed from its first
      (latest) election row joined with its booth record. */
  predicate FromFirstRow(res: BoothHealthResult, edData: seq<ElectionRecord>, boothMap: BoothMap, regionMap: RegionMap)
  {
    var first := FirstRowFor(edData, res.booth_id);
    && first.Some?
    && Has(boothMap, res.booth_id)
    && res == ComputeBoothHealth(Joined(first.value, boothMap, regionMap))
  }

  /** No fetched booth belongs to constituency `cid`. */
  predicate NoBoothIn(boothData: seq<BoothRecord>, cid: string) {
    forall i :: 0 <= i < |boothData| ==> boothData[i].constituency_id != cid
  }

  /** The pure part of `getBoothsWithHealth`, given the three query results
      (a null result is the empty list). */
  function GetBoothsWithHealth(
    cid: Option<string>,
    edData: seq<ElectionRecord>,
    boothData: seq<BoothRecord>,
    constData: seq<ConstituencyRecord>): (rs: seq<BoothHealthResult>)
    ensures |edData| == 0 ==> rs == []
    ensures Filtering(cid) && NoBoothIn(boothData, cid.value) ==> rs == []
    ensures ResultIds(rs)
            == Filter(Filter(FirstSeen(RecordIds(edData)), KeepPred(MakeBoothMap(boothData), cid)),
                      HasBoothPred(MakeBoothMap(boothData)))
    ensures Distinct(ResultIds(rs))
    ensures forall i :: 0 <= i < |rs| ==>
              FromFirstRow(rs[i], edData, MakeBoothMap(boothData), MakeRegionMap(constData))
    ensures Filtering(cid) ==> forall i :: 0 <= i < |rs| ==> rs[i].constituency_id == cid
  {
    var boothMap := MakeBoothMap(boothData);
    var regionMap := MakeRegionMap(constData);
    var kept := Filter(FirstSeen(RecordIds(edData)), KeepPred(boothMap, cid));
    assert Distinct(Filter(kept, HasBoothPred(boothMap))) by {
      FirstSeenMembers(RecordIds(edData));
      FilterDistinct(FirstSeen(RecordIds(edData)), KeepPred(boothMap, cid));
      FilterDistinct(kept, HasBoothPred(boothMap));
    }
    if |edData| == 0 then
      []
    else if Filtering(cid) && NoBoothIn(boothData, cid.value) then
      NoBoothInNothingKept(edData, boothData, cid);
      []
    else
      JoinedResultsSpec(edData, boothMap, regionMap, cid);
      ComputeBoothHealthBatch(JoinRows(Values(LatestByBooth(edData, boothMap, cid)), boothMap, regionMap))
  }

  /** The records the loop keeps are the first rows of kept booths, listed
      in the order of the kept booth ids. */
  lemma LatestRecords(edData: seq<ElectionRecord>, boothMap: BoothMap, cid: Option<string>)
    ensures var records := Values(LatestByBooth(edData, boothMap, cid));
            && RecordIds(records) == Filter(FirstSeen(RecordIds(edData)), KeepPred(boothMap, cid))
            && forall r :: r in records ==> FirstRowFor(edData, r.booth_id) == Some(r) && Keep(boothMap, cid, r.booth_id)
  {
    var latest := LatestByBooth(edData, boothMap, cid);
    LatestByBoothSpec(edData, boothMap, cid);
    var records := Values(latest);
    forall r | r in records
      ensures FirstRowFor(edData, r.booth_id) == Some(r)
      ensures Keep(boothMap, cid, r.booth_id)
    {
      var j :| 0 <= j < |records| && records[j] == r;
      assert FirstRowFor(edData, latest[j].key) == Some(latest[j].value);
      assert Keys(latest)[j] == latest[j].key;
      FilterMembers(FirstSeen(RecordIds(edData)), KeepPred(boothMap, cid), latest[j].key);
    }
    assert RecordIds(records) == Keys(latest) by {
      forall i | 0 <= i < |latest|
        ensures records[i].booth_id == latest[i].key
      {
        assert Keys(latest)[i] == latest[i].key;
      }
    }
  }

  /** The joined health results: one per kept booth with a booth record, in
      first-seen order, each computed from the booth's first row. */
  lemma JoinedResultsSpec(edData: seq<ElectionRecord>, boothMap: BoothMap, regionMap: RegionMap, cid: Option<string>)
    ensures var rs := ComputeBoothHealthBatch(JoinRows(Values(LatestByBooth(edData, boothMap, cid)), boothMap, regionMap));
            && ResultIds(rs) == Filter(Filter(FirstSeen(RecordIds(edData)), KeepPred(boothMap, cid)), HasBoothPred(boothMap))
            && (forall i :: 0 <= i < |rs| ==> FromFirstRow(rs[i], edData, boothMap, regionMap))
            && (Filtering(cid) ==> forall i :: 0 <= i < |rs| ==> rs[i].constituency_id == cid)
  {
    var latest := LatestByBooth(edData, boothMap, cid);
    var records := Values(latest);
    LatestRecords(edData, boothMap, cid);
    var rows := JoinRows(records, boothMap, regionMap);
    JoinRowsSpec(records, boothMap, regionMap);
    var rs := ComputeBoothHealthBatch(rows);
    assert ResultIds(rs) == RowIds(rows);
    forall i | 0 <= i < |rs|
      ensures FromFirstRow(rs[i], edData, boothMap, regionMap)
      ensures Filtering(cid) ==> rs[i].constituency_id == cid
    {
      assert rows[i] in rows;
      var r :| r in records && Has(boothMap, r.booth_id) && rows[i] == Joined(r, boothMap, regionMap);
    }
  }

  lemma {:induction false} FilterDistinct<T>(s: seq<T>, p: T -> bool)
    requires Distinct(s)
    ensures Distinct(Filter(s, p))
  {
    if |s| > 0 {
      FilterDistinct(s[1..], p);
      FilterMembers(s[1..], p, s[0]);
    }
  }

  /** When no fetched booth is in the constituency, the filter keeps no booth. */
  lemma NoBoothInNothingKept(edData: seq<ElectionRecord>, boothData: seq<BoothRecord>, cid: Option<string>)
    requires Filtering(cid) && NoBoothIn(boothData, cid.value)
    ensures Filter(FirstSeen(RecordIds(edData)), KeepPred(MakeBoothMap(boothData), cid)) == []
  {
    var boothMap := MakeBoothMap(boothData);
    var es := BoothEntries(boothData);
    forall bid
      ensures !KeepPred(boothMap, cid)(bid)
    {
      FromEntriesGet(es, bid);
      LastValueIn(es, bid);
    }
    FilterNone(FirstSeen(RecordIds(edData)), KeepPred(boothMap, cid));
  }

  lemma {:induction false} LastValueIn<K, V>(es: seq<Entry<K, V>>, k: K)
    ensures LastValue(es, k).Some? ==> Entry(k, LastValue(es, k).value) in es
  {
    if |es| > 0 && es[|es| - 1].key != k {
      LastValueIn(es[..|es| - 1], k);
    }
  }

  // ---------------------------------------------------------------------
  // mapToHighRiskBooths
  // ---------------------------------------------------------------------

  /** Booths whose health index is below this value are listed as high risk. */
  const HighRiskCeiling: real := 55.0

  datatype HighRiskBooth = HighRiskBooth(booth: string, zone: string, swing: real, turnout: int, health: int)

  function BelowCeilingPred(): BoothHealthResult -> bool
  {
    (r: BoothHealthResult) => r.health_index < HighRiskCeiling
  }

  function HealthIs(h: real): BoothHealthResult -> bool
  {
    (r: BoothHealthResult) => r.health_index == h
  }

  predicate SortedByHealth(s: seq<BoothHealthResult>) {
    forall i, j :: 0 <= i < j < |s| ==> s[i].health_index <= s[j].health_index
  }

  /** Puts x in front of the first element whose health is at least x's, so
      x stays ahead of the equal elements that came after it. */
  function InsertByHealth(x: BoothHealthResult, s: seq<BoothHealthResult>): (r: seq<BoothHealthResult>)
    ensures |r| == |s| + 1
  {
    if |s| == 0 || x.health_index <= s[0].health_index then [x] + s
    else [s[0]] + InsertByHealth(x, s[1..])
  }

  /** `s.sort((a, b) => a.health_index - b.health_index)`. The array sort of
      JavaScript is stable, and so is this insertion sort. */
  function SortByHealth(s: seq<BoothHealthResult>): (r: seq<BoothHealthResult>)
    ensures |r| == |s|
  {
    if |s| == 0 then [] else InsertByHealth(s[0], SortByHealth(s[1..]))
  }

  lemma {:induction false} InsertPermutes(x: BoothHealthResult, s: seq<BoothHealthResult>)
    ensures multiset(InsertByHealth(x, s)) == multiset(s) + multiset{x}
  {
    if |s| > 0 && x.health_index > s[0].health_index {
      InsertPermutes(x, s[1..]);
      assert s == [s[0]] + s[1..];
    }
  }

  lemma {:induction false} InsertSorted(x: BoothHealthResult, s: seq<BoothHealthResult>)
    requires SortedByHealth(s)
    ensures SortedByHealth(InsertByHealth(x, s))
  {
    if |s| > 0 && x.health_index > s[0].health_index {
      var t := InsertByHealth(x, s[1..]);
      InsertSorted(x, s[1..]);
      InsertPermutes(x, s[1..]);
      forall k | 0 <= k < |t|
        ensures s[0].health_index <= t[k].health_index
      {
        assert t[k] in multiset(s[1..]) + multiset{x};
        if t[k] != x {
          assert t[k] in s[1..];
          var j :| 0 <= j < |s[1..]| && s[1..][j] == t[k];
          assert s[j + 1] == t[k];
        }
      }
    }
  }

  lemma {:induction false} InsertStable(x: BoothHealthResult, s: seq<BoothHealthResult>, h: real)
    ensures Filter(InsertByHealth(x, s), HealthIs(h))
            == (if x.health_index == h then [x] else []) + Filter(s, HealthIs(h))
  {
    if |s| > 0 && x.health_index > s[0].health_index {
      var t := InsertByHealth(x, s[1..]);
      InsertStable(x, s[1..], h);
      assert ([s[0]] + t)[1..] == t;
    } else {
      assert ([x] + s)[1..] == s;
    }
  }

  /** The sort orders by health and only reorders. */
  lemma SortByHealthSorted(s: seq<BoothHealthResult>)
    ensures SortedByHealth(SortByHealth(s))
    ensures multiset(SortByHealth(s)) == multiset(s)
  {
    SortByHealthOrdered(s);
    SortByHealthPermutes(s);
  }

  lemma {:induction false} SortByHealthOrdered(s: seq<BoothHealthResult>)
    ensures SortedByHealth(SortByHealth(s))
  {
    if |s| > 0 {
      SortByHealthOrdered(s[1..]);
      InsertSorted(s[0], SortByHealth(s[1..]));
    }
  }

  lemma {:induction false} SortByHealthPermutes(s: seq<BoothHealthResult>)
    ensures multiset(SortByHealth(s)) == multiset(s)
  {
    if |s| > 0 {
      SortByHealthPermutes(s[1..]);
      InsertPermutes(s[0], SortByHealth(s[1..]));
      assert s == [s[0]] + s[1..];
    }
  }

  /** The sort is stable: the booths of any one health value keep their
      relative order. */
  lemma {:induction false} SortByHealthStable(s: seq<BoothHealthResult>, h: real)
    ensures Filter(SortByHealth(s), HealthIs(h)) == Filter(s, HealthIs(h))
  {
    if |s| > 0 {
      SortByHealthStable(s[1..], h);
      InsertStable(s[0], SortByHealth(s[1..]), h);
    }
  }

  /** A booth is among the sorted candidates exactly when it is an input
      booth below the ceiling. */
  lemma SortedBelowMembers(results: seq<BoothHealthResult>, x: BoothHealthResult)
    ensures x in SortByHealth(Filter(results, BelowCeilingPred()))
            <==> x in results && x.health_index < HighRiskCeiling
  {
    SortByHealthSorted(Filter(results, BelowCeilingPred()));
    assert x in SortByHealth(Filter(results, BelowCeilingPred()))
           <==> x in multiset(Filter(results, BelowCeilingPred()));
    FilterMembers(results, BelowCeilingPred(), x);
  }

  /** In a list sorted by health, a prefix holds the lowest values. */
  lemma PrefixLowest(s: seq<BoothHealthResult>, n: nat, y: BoothHealthResult)
    requires SortedByHealth(s) && n <= |s|
    requires y in s && y !in s[..n]
    ensures forall i :: 0 <= i < n ==> s[i].health_index <= y.health_index
  {
    assert s == s[..n] + s[n..];
    assert y in s[n..];
    var k :| 0 <= k < |s[n..]| && s[n..][k] == y;
    assert s[n + k] == y;
  }

  /** The booths below the ceiling, lowest health first, cut to `limit` as
      `slice(0, limit)` cuts. */
  function SelectHighRisk(results: seq<BoothHealthResult>, limit: int): (sel: seq<BoothHealthResult>)
    ensures |sel| == SliceEnd(|Filter(results, BelowCeilingPred())|, limit)
    ensures forall i :: 0 <= i < |sel| ==> sel[i] in results && sel[i].health_index < HighRiskCeiling
    ensures SortedByHealth(sel)
    ensures multiset(sel) <= multiset(results)
    ensures forall y :: y in results && y.health_index < HighRiskCeiling && y !in sel ==>
              forall i :: 0 <= i < |sel| ==> sel[i].health_index <= y.health_index
    ensures |sel| == |Filter(results, BelowCeilingPred())| ==>
              multiset(sel) == multiset(Filter(results, BelowCeilingPred()))
  {
    var below := Filter(results, BelowCeilingPred());
    var n := SliceEnd(|below|, limit);
    SortByHealthSorted(below);
    SelectedAreCandidates(results, n);
    SelectedAreLowest(results, n);
    SelectedMultiset(results, n);
    SortByHealth(below)[..n]
  }

  lemma SelectedAreCandidates(results: seq<BoothHealthResult>, n: nat)
    requires n <= |Filter(results, BelowCeilingPred())|
    ensures var sorted := SortByHealth(Filter(results, BelowCeilingPred()));
            forall i :: 0 <= i < n ==> sorted[i] in results && sorted[i].health_index < HighRiskCeiling
  {
    var sorted := SortByHealth(Filter(results, BelowCeilingPred()));
    forall i | 0 <= i < n
      ensures sorted[i] in results && sorted[i].health_index < HighRiskCeiling
    {
      SortedBelowMembers(results, sorted[i]);
    }
  }

  lemma SelectedAreLowest(results: seq<BoothHealthResult>, n: nat)
    requires n <= |Filter(results, BelowCeilingPred())|
    ensures var sel := SortByHealth(Filter(results, BelowCeilingPred()))[..n];
            forall y :: y in results && y.health_index < HighRiskCeiling && y !in sel ==>
              forall i :: 0 <= i < |sel| ==> sel[i].health_index <= y.health_index
  {
    var below := Filter(results, BelowCeilingPred());
    var sorted := SortByHealth(below);
    SortByHealthSorted(below);
    forall y | y in results && y.health_index < HighRiskCeiling && y !in sorted[..n]
      ensures forall i :: 0 <= i < n ==> sorted[i].health_index <= y.health_index
    {
      SortedBelowMembers(results, y);
      PrefixLowest(sorted, n, y);
    }
  }

  lemma SelectedMultiset(results: seq<BoothHealthResult>, n: nat)
    requires n <= |Filter(results, BelowCeilingPred())|
    ensures var below := Filter(results, BelowCeilingPred());
            var sel := SortByHealth(below)[..n];
            && multiset(sel) <= multiset(results)
            && (n == |below| ==> multiset(sel) == multiset(below))
  {
    var below := Filter(results, BelowCeilingPred());
    var sorted := SortByHealth(below);
    SortByHealthSorted(below);
    FilterMultiset(results, BelowCeilingPred());
    assert sorted == sorted[..n] + sorted[n..];
    assert n == |below| ==> sorted[..n] == sorted;
  }

  /** One row of the high-risk table. */
  function ToHighRiskBooth(r: BoothHealthResult): (b: HighRiskBooth)
    ensures r.health_index - 0.5 < b.health as real <= r.health_index + 0.5
    ensures r.swing_pct - 0.05 < b.swing <= r.swing_pct + 0.05
    ensures (10.0 * b.swing).Floor as real == 10.0 * b.swing
    ensures r.turnout_pct - 0.5 < b.turnout as real <= r.turnout_pct + 0.5
    ensures r.health_index < HighRiskCeiling ==> b.health <= 55
    ensures b.booth == "B-" + r.booth_number && b.zone == r.zone
  {
    HighRiskBooth(
      booth := "B-" + r.booth_number,
      zone := r.zone,
      swing := RoundTenth(r.swing_pct),
      turnout := Round(r.turnout_pct),
      health := Round(r.health_index))
  }

  /** `mapToHighRiskBooths(results, limit)`: at most `limit` rows for booths
      below 55, weakest first; a listed booth is never healthier than a
      below-55 booth that was left out. The source's default limit is 10. */
  function MapToHighRiskBooths(results: seq<BoothHealthResult>, limit: int): (rows: seq<HighRiskBooth>)
    ensures |rows| == SliceEnd(|Filter(results, BelowCeilingPred())|, limit)
    ensures 0 <= limit ==> |rows| <= limit
    ensures forall i :: 0 <= i < |rows| ==> rows[i].health <= 55
    ensures forall i, j :: 0 <= i < j < |rows| ==> rows[i].health <= rows[j].health
    ensures |rows| == |SelectHighRisk(results, limit)|
    ensures forall i :: 0 <= i < |rows| ==>
              && rows[i] == ToHighRiskBooth(SelectHighRisk(results, limit)[i])
              && SelectHighRisk(results, limit)[i] in results
              && SelectHighRisk(results, limit)[i].health_index < HighRiskCeiling
    ensures forall y :: y in results && y.health_index < HighRiskCeiling && y !in SelectHighRisk(results, limit) ==>
              forall i :: 0 <= i < |rows| ==> rows[i].health <= Round(y.health_index)
  {
    var sel := SelectHighRisk(results, limit);
    ShownRowsOrdered(sel);
    ShownRowsLowest(results, sel);
    var rows := ShowRows(sel);
    rows
  }

  /** The displayed rows of a selection, one per booth, in order. */
  function ShowRows(sel: seq<BoothHealthResult>): (rows: seq<HighRiskBooth>)
    ensures |rows| == |sel|
    ensures forall i :: 0 <= i < |sel| ==> rows[i] == ToHighRiskBooth(sel[i])
  {
    seq(|sel|, i requires 0 <= i < |sel| => ToHighRiskBooth(sel[i]))
  }

  /** Rounding keeps the health order of a sorted selection. */
  lemma ShownRowsOrdered(sel: seq<BoothHealthResult>)
    requires SortedByHealth(sel)
    ensures forall i, j :: 0 <= i < j < |sel| ==> ShowRows(sel)[i].health <= ShowRows(sel)[j].health
  {
    forall i, j | 0 <= i < j < |sel|
      ensures ShowRows(sel)[i].health <= ShowRows(sel)[j].health
    {
      RoundMonotone(sel[i].health_index, sel[j].health_index);
    }
  }

  /** A booth left out of the selection never shows a lower health than a
      listed one. */
  lemma ShownRowsLowest(results: seq<BoothHealthResult>, sel: seq<BoothHealthResult>)
    requires forall y :: y in results && y.health_index < HighRiskCeiling && y !in sel ==>
               forall i :: 0 <= i < |sel| ==> sel[i].health_index <= y.health_index
    ensures forall y :: y in results && y.health_index < HighRiskCeiling && y !in sel ==>
              forall i :: 0 <= i < |sel| ==> ShowRows(sel)[i].health <= Round(y.health_index)
  {
    forall y, i | y in results && y.health_index < HighRiskCeiling && y !in sel && 0 <= i < |sel|
      ensures ShowRows(sel)[i].health <= Round(y.health_index)
    {
      RoundMonotone(sel[i].health_index, y.health_index);
    }
  }

  /** A booth at 54.5 passes the `< 55` filter and is shown with health 55. */
  lemma HighRiskShowsFiftyFive()
    ensures ToHighRiskBooth(BoothHealthResult("b", "7", 54.5, 0.0, 0.0, 0.0, "North", None, 0.0)).health == 55
  {
  }

  // ---------------------------------------------------------------------
  // mapToOpportunityClusters
  // ---------------------------------------------------------------------

  /** Booths at or above this health index take part in clusters. */
  const OpportunityFloor: real := 65.0
  const MaxClusters: nat := 5

  datatype Potential = High | Medium | Low

  datatype OpportunityCluster = OpportunityCluster(cluster: string, booths: nat, avgSwing: real, potential: Potential)

  /** Zone name to the booths of that zone, in insertion order. */
  type ZoneMap = seq<Entry<string, seq<BoothHealthResult>>>

  function AtFloorPred(): BoothHealthResult -> bool
  {
    (r: BoothHealthResult) => r.health_index >= OpportunityFloor
  }

  function InZonePred(z: string): BoothHealthResult -> bool
  {
    (r: BoothHealthResult) => r.zone == z
  }

  function LargeGroupPred(): Entry<string, seq<BoothHealthResult>> -> bool
  {
    (g: Entry<string, seq<BoothHealthResult>>) => |g.value| >= 2
  }

  function Zones(rs: seq<BoothHealthResult>): (zs: seq<string>)
    ensures |zs| == |rs|
    ensures forall i :: 0 <= i < |rs| ==> zs[i] == rs[i].zone
  {
    seq(|rs|, i requires 0 <= i < |rs| => rs[i].zone)
  }

  /** One pass of the grouping loop. */
  function GroupStep(m: ZoneMap, r: BoothHealthResult): ZoneMap
  {
    if r.health_index < OpportunityFloor then m
    else Set(m, r.zone, Get(m, r.zone).OrElse([]) + [r])
  }

  /** The `byZone` map after the loop over `rs`. */
  function GroupByZone(rs: seq<BoothHealthResult>): ZoneMap
  {
    if |rs| == 0 then [] else GroupStep(GroupByZone(rs[..|rs| - 1]), rs[|rs| - 1])
  }

  /** Reference grouping of the booths f: every zone that occurs, in order of
      first occurrence, with the booths of that zone in their order in f. */
  function ZoneGroups(f: seq<BoothHealthResult>): (g: ZoneMap)
    ensures |g| == |FirstSeen(Zones(f))|
    ensures Keys(g) == FirstSeen(Zones(f))
  {
    var zs := FirstSeen(Zones(f));
    seq(|zs|, i requires 0 <= i < |zs| => Entry(zs[i], Filter(f, InZonePred(zs[i]))))
  }

  predicate GroupInvariant(m: ZoneMap, f: seq<BoothHealthResult>)
  {
    && Valid(m)
    && Keys(m) == FirstSeen(Zones(f))
    && forall z :: z in Keys(m) ==> Get(m, z) == Some(Filter(f, InZonePred(z)))
  }

  lemma ZoneOfFiltered(f: seq<BoothHealthResult>, z: string)
    ensures Filter(f, InZonePred(z)) != [] ==> z in Zones(f)
  {
    var g := Filter(f, InZonePred(z));
    if g != [] {
      FilterMembers(f, InZonePred(z), g[0]);
      var i :| 0 <= i < |f| && f[i] == g[0];
      assert Zones(f)[i] == z;
    }
  }

  lemma ZonesSnoc(f: seq<BoothHealthResult>, x: BoothHealthResult)
    ensures Zones(f + [x]) == Zones(f) + [x.zone]
    ensures FirstSeen(Zones(f + [x]))
            == if x.zone in FirstSeen(Zones(f)) then FirstSeen(Zones(f))
               else FirstSeen(Zones(f)) + [x.zone]
  {
    assert Zones(f + [x]) == Zones(f) + [x.zone];
    assert Zones(f + [x])[..|f|] == Zones(f);
  }

  /** Adding an opportunity booth x: the zone keys and their order. */
  lemma GroupStepAddsKeys(m: ZoneMap, f: seq<BoothHealthResult>, x: BoothHealthResult)
    requires GroupInvariant(m, f)
    ensures var m' := Set(m, x.zone, Get(m, x.zone).OrElse([]) + [x]);
            Valid(m') && Keys(m') == FirstSeen(Zones(f + [x]))
  {
    var z := x.zone;
    var m' := Set(m, z, Get(m, z).OrElse([]) + [x]);
    ZonesSnoc(f, x);
    if !Has(m, z) {
      assert Keys(m') == Keys(m) + [z];
    }
  }

  /** Adding an opportunity booth x: every zone's list of booths. */
  lemma GroupStepAddsLists(m: ZoneMap, f: seq<BoothHealthResult>, x: BoothHealthResult)
    requires GroupInvariant(m, f)
    ensures var m' := Set(m, x.zone, Get(m, x.zone).OrElse([]) + [x]);
            forall z :: z in Keys(m') ==> Get(m', z) == Some(Filter(f + [x], InZonePred(z)))
  {
    var z := x.zone;
    var m' := Set(m, z, Get(m, z).OrElse([]) + [x]);
    assert Get(m, z).OrElse([]) == Filter(f, InZonePred(z)) by {
      if !Has(m, z) {
        FirstSeenMembers(Zones(f));
        ZoneOfFiltered(f, z);
      }
    }
    forall z' | z' in Keys(m')
      ensures Get(m', z') == Some(Filter(f + [x], InZonePred(z')))
    {
      FilterSnoc(f, x, InZonePred(z'));
      if z' == z {
        assert InZonePred(z')(x);
        assert Get(m', z) == Some(Get(m, z).OrElse([]) + [x]);
        assert Filter(f + [x], InZonePred(z)) == Filter(f, InZonePred(z)) + [x];
      } else {
        assert !InZonePred(z')(x);
        assert Get(m', z') == Get(m, z');
        assert z' in Keys(m) by {
          if !Has(m, z) {
            assert Keys(m') == Keys(m) + [z];
          }
        }
        assert Get(m, z') == Some(Filter(f, InZonePred(z')));
        assert Filter(f + [x], InZonePred(z')) == Filter(f, InZonePred(z'));
      }
    }
  }

  lemma {:induction false} GroupByZoneSpec(rs: seq<BoothHealthResult>)
    ensures GroupInvariant(GroupByZone(rs), Filter(rs, AtFloorPred()))
  {
    if |rs| > 0 {
      var init := rs[..|rs| - 1];
      var x := rs[|rs| - 1];
      GroupByZoneSpec(init);
      assert rs == init + [x];
      FilterSnoc(init, x, AtFloorPred());
      var m := GroupByZone(init);
      var f := Filter(init, AtFloorPred());
      assert GroupByZone(rs) == GroupStep(m, x);
      if x.health_index >= OpportunityFloor {
        assert Filter(rs, AtFloorPred()) == f + [x];
        GroupStepAddsKeys(m, f, x);
        GroupStepAddsLists(m, f, x);
      } else {
        assert Filter(rs, AtFloorPred()) == f;
      }
    }
  }

  /** The grouping loop builds exactly the reference grouping of the booths
      at or above the floor. */
  lemma GroupByZoneIsZoneGroups(rs: seq<BoothHealthResult>)
    ensures GroupByZone(rs) == ZoneGroups(Filter(rs, AtFloorPred()))
  {
    var f := Filter(rs, AtFloorPred());
    var m := GroupByZone(rs);
    var g := ZoneGroups(f);
    GroupByZoneSpec(rs);
    forall i | 0 <= i < |m|
      ensures m[i] == g[i]
    {
      assert Keys(m)[i] == m[i].key;
      GetAt(m, i);
    }
  }

  function PotentialOf(avgSwing: real): (p: Potential)
    ensures p == High <==> avgSwing >= 4.0
    ensures p == Medium <==> 2.5 <= avgSwing < 4.0
    ensures p == Low <==> avgSwing < 2.5
  {
    if avgSwing >= 4.0 then High else if avgSwing >= 2.5 then Medium else Low
  }

  /** The cluster entry for the idx-th reported zone. The potential is read
      from the unrounded mean swing, the shown swing is rounded to a tenth. */
  function MakeCluster(idx: nat, zone: string, list: seq<BoothHealthResult>): (c: OpportunityCluster)
    requires |list| > 0
    ensures c.booths == |list|
    ensures c.potential == PotentialOf(Mean(DashboardAnalytics.Swings(list)))
    ensures Mean(DashboardAnalytics.Swings(list)) - 0.05 < c.avgSwing <= Mean(DashboardAnalytics.Swings(list)) + 0.05
    ensures (10.0 * c.avgSwing).Floor as real == 10.0 * c.avgSwing
    ensures c.cluster == "C" + NatToString(idx) + " (" + zone + ", " + NatToString(|list|) + " booths)"
  {
    var avgSwing := Mean(DashboardAnalytics.Swings(list));
    OpportunityCluster(
      cluster := "C" + NatToString(idx) + " (" + zone + ", " + NatToString(|list|) + " booths)",
      booths := |list|,
      avgSwing := RoundTenth(avgSwing),
      potential := PotentialOf(avgSwing))
  }

  /** A mean swing of 3.96 is shown as 4.0 but rated Medium: the potential
      is read before rounding. */
  lemma PotentialReadsUnroundedMean()
    ensures var b := BoothHealthResult("b", "1", 80.0, 3.96, 0.0, 0.0, "North", None, 0.0);
            var c := MakeCluster(1, "North", [b, b]);
            c.avgSwing == 4.0 && c.potential == Medium && c.booths == 2
  {
    var b := BoothHealthResult("b", "1", 80.0, 3.96, 0.0, 0.0, "North", None, 0.0);
    assert DashboardAnalytics.Swings([b, b]) == [3.96, 3.96];
    assert Sum([3.96, 3.96]) == 7.92 by {
      assert [3.96, 3.96][1..] == [3.96];
    }
    assert Round(39.6) == 40;
  }

  /** The loop over the groups; the numbering starts at idx. */
  function BuildClusters(groups: ZoneMap, idx: nat): (cs: seq<OpportunityCluster>)
    ensures |cs| <= |groups|
  {
    if |groups| == 0 then []
    else if |groups[0].value| < 2 then BuildClusters(groups[1..], idx)
    else [MakeCluster(idx, groups[0].key, groups[0].value)] + BuildClusters(groups[1..], idx + 1)
  }

  /** The loop reports the groups of two or more booths, in order, numbered
      consecutively from idx: a skipped small zone does not use up a number. */
  lemma {:induction false} BuildClustersSpec(groups: ZoneMap, idx: nat)
    ensures var large := Filter(groups, LargeGroupPred());
            var cs := BuildClusters(groups, idx);
            && |cs| == |large|
            && forall i :: 0 <= i < |cs| ==>
                 |large[i].value| >= 2 && cs[i] == MakeCluster(idx + i, large[i].key, large[i].value)
  {
    if |groups| > 0 {
      var rest := groups[1..];
      if |groups[0].value| < 2 {
        BuildClustersSpec(rest, idx);
      } else {
        BuildClustersSpec(rest, idx + 1);
        BuildClustersLargeHead(groups, idx);
      }
    }
  }

  /** The step of BuildClustersSpec when the first zone has two or more
      booths: it becomes cluster idx and the rest are numbered from idx + 1. */
  lemma BuildClustersLargeHead(groups: ZoneMap, idx: nat)
    requires |groups| > 0 && |groups[0].value| >= 2
    requires var large := Filter(groups[1..], LargeGroupPred());
             var cs := BuildClusters(groups[1..], idx + 1);
             && |cs| == |large|
             && forall i :: 0 <= i < |cs| ==>
                  |large[i].value| >= 2 && cs[i] == MakeCluster(idx + 1 + i, large[i].key, large[i].value)
    ensures var large := Filter(groups, LargeGroupPred());
            var cs := BuildClusters(groups, idx);
            && |cs| == |large|
            && forall i :: 0 <= i < |cs| ==>
                 |large[i].value| >= 2 && cs[i] == MakeCluster(idx + i, large[i].key, large[i].value)
  {
    var rest := groups[1..];
    var large := Filter(groups, LargeGroupPred());
    var cs := BuildClusters(groups, idx);
    assert large == [groups[0]] + Filter(rest, LargeGroupPred());
    assert cs == [MakeCluster(idx, groups[0].key, groups[0].value)] + BuildClusters(rest, idx + 1);
    forall i | 0 < i < |cs|
      ensures |large[i].value| >= 2 && cs[i] == MakeCluster(idx + i, large[i].key, large[i].value)
    {
      assert large[i] == Filter(rest, LargeGroupPred())[i - 1];
      assert cs[i] == BuildClusters(rest, idx + 1)[i - 1];
    }
  }

  /** `mapToOpportunityClusters(results)`: the first five zones, in order of
      first occurrence, that have at least two booths at or above 65, numbered
      from 1. The `clusterSize` argument of the source is never read. */
  function MapToOpportunityClusters(results: seq<BoothHealthResult>): (cs: seq<OpportunityCluster>)
    ensures |cs| <= MaxClusters
    ensures forall i :: 0 <= i < |cs| ==> cs[i].booths >= 2
    ensures var large := Filter(ZoneGroups(Filter(results, AtFloorPred())), LargeGroupPred());
            && |cs| == (if |large| < MaxClusters then |large| else MaxClusters)
            && forall i :: 0 <= i < |cs| ==>
                 |large[i].value| >= 2 && cs[i] == MakeCluster(i + 1, large[i].key, large[i].value)
  {
    GroupByZoneIsZoneGroups(results);
    BuildClustersSpec(GroupByZone(results), 1);
    var all := BuildClusters(GroupByZone(results), 1);
    all[..SliceEnd(|all|, MaxClusters)]
  }
}

=== FILE: collections.dfy ===
/** `T | null`: a value that may be absent. */
module Nullable {

  datatype Option<+T> = None | Some(value: T) {

    /** The `??` operator: the value when present, the fallback otherwise. */
    function OrElse(fallback: T): T {
      match this
      case Some(v) => v
      case None => fallback
    }
  }
}

/** Sequence helpers shared by the services: the array methods of JavaScript
    (`filter`, `slice`, `join`) and de-duplication in first-seen order. */
module Seqs {

  predicate Distinct<T(==)>(s: seq<T>) {
    forall i, j :: 0 <= i < j < |s| ==> s[i] != s[j]
  }

  /** `s.filter(p)`: the elements satisfying p, in their original order. */
  function Filter<T>(s: seq<T>, p: T -> bool): (r: seq<T>)
    ensures |r| <= |s|
    ensures forall i :: 0 <= i < |r| ==> p(r[i])
  {
    if |s| == 0 then []
    else if p(s[0]) then [s[0]] + Filter(s[1..], p)
    else Filter(s[1..], p)
  }

  lemma {:induction false} FilterMembers<T>(s: seq<T>, p: T -> bool, x: T)
    ensures x in Filter(s, p) <==> x in s && p(x)
  {
    if |s| > 0 {
      FilterMembers(s[1..], p, x);
      assert s == [s[0]] + s[1..];
    }
  }

  lemma FilterNone<T>(s: seq<T>, p: T -> bool)
    requires forall x :: !p(x)
    ensures Filter(s, p) == []
  {
    if |Filter(s, p)| > 0 {
      assert p(Filter(s, p)[0]);
    }
  }

  /** Filtering a list with a known head: the head stays exactly when it
      passes. */
  lemma FilterCons<T>(x: T, t: seq<T>, p: T -> bool)
    ensures Filter([x] + t, p) == if p(x) then [x] + Filter(t, p) else Filter(t, p)
  {
    assert ([x] + t)[1..] == t;
  }

  lemma {:induction false} FilterAppend<T>(a: seq<T>, b: seq<T>, p: T -> bool)
    ensures Filter(a + b, p) == Filter(a, p) + Filter(b, p)
  {
    if |a| == 0 {
      assert a + b == b;
    } else {
      assert (a + b)[1..] == a[1..] + b;
      FilterAppend(a[1..], b, p);
    }
  }

  /** Filtering one more element at the end. */
  lemma FilterSnoc<T>(a: seq<T>, x: T, p: T -> bool)
    ensures Filter(a + [x], p) == Filter(a, p) + (if p(x) then [x] else [])
  {
    FilterAppend(a, [x], p);
    assert Filter([x], p) == (if p(x) then [x] else []) by {
      assert [x][1..] == [];
    }
  }

  lemma {:induction false} FilterMultiset<T>(s: seq<T>, p: T -> bool)
    ensures multiset(Filter(s, p)) <= multiset(s)
  {
    if |s| > 0 {
      FilterMultiset(s[1..], p);
      assert s == [s[0]] + s[1..];
    }
  }

  /** The values of s with repeats removed, each kept at its first position
      (what `[...new Set(s)]` and the key order of a JavaScript `Map` give). */
  function FirstSeen<T(==)>(s: seq<T>): (r: seq<T>)
  {
    if |s| == 0 then []
    else
      var prefix := FirstSeen(s[..|s| - 1]);
      if s[|s| - 1] in prefix then prefix else prefix + [s[|s| - 1]]
  }

  /** FirstSeen keeps exactly the values of s, once each. */
  lemma {:induction false} FirstSeenMembers<T>(s: seq<T>)
    ensures Distinct(FirstSeen(s))
    ensures forall x :: x in FirstSeen(s) <==> x in s
  {
    if |s| > 0 {
      FirstSeenMembers(s[..|s| - 1]);
      assert s == s[..|s| - 1] + [s[|s| - 1]];
    }
  }

  lemma FirstSeenElement<T>(s: seq<T>, i: nat)
    requires i < |FirstSeen(s)|
    ensures FirstSeen(s)[i] in s
  {
    FirstSeenMembers(s);
  }

  /** FirstSeen orders the values of s by the position of their first
      occurrence. */
  lemma {:induction false} FirstSeenOrder<T>(s: seq<T>)
    ensures forall i, j :: 0 <= i < j < |FirstSeen(s)| ==>
              FirstSeen(s)[i] in s && FirstSeen(s)[j] in s &&
              FirstIndex(s, FirstSeen(s)[i]) < FirstIndex(s, FirstSeen(s)[j])
  {
    forall i | 0 <= i < |FirstSeen(s)| ensures FirstSeen(s)[i] in s {
      FirstSeenElement(s, i);
    }
    forall i: nat, j: nat | i < j < |FirstSeen(s)| {
      FirstSeenOrderAt(s, i, j);
    }
  }

  /** FirstSeenOrder for one pair of positions, by induction on s. */
  lemma {:induction false} FirstSeenOrderAt<T>(s: seq<T>, i: nat, j: nat)
    requires i < j < |FirstSeen(s)|
    ensures FirstSeen(s)[i] in s && FirstSeen(s)[j] in s &&
            FirstIndex(s, FirstSeen(s)[i]) < FirstIndex(s, FirstSeen(s)[j])
  {
    var init := s[..|s| - 1];
    var last := s[|s| - 1];
    var fs := FirstSeen(init);
    assert s == init + [last];
    FirstSeenMembers(init);
    FirstSeenMembers(s);
    if last !in fs && j == |fs| {
      assert FirstSeen(s) == fs + [last];
      FirstSeenElement(init, i);
      FirstIndexPrefix(init, [last], fs[i]);
      FirstIndexPrefix(init, [last], last);
      FirstIndexBounds(init, fs[i]);
    } else {
      assert FirstSeen(s)[i] == fs[i] && FirstSeen(s)[j] == fs[j];
      FirstSeenOrderAt(init, i, j);
      FirstIndexPrefix(init, [last], fs[i]);
      FirstIndexPrefix(init, [last], fs[j]);
    }
  }

  /** Position of the first occurrence of x in s. */
  function FirstIndex<T(==)>(s: seq<T>, x: T): (i: nat)
    requires x in s
    ensures i < |s| && s[i] == x
    ensures forall j :: 0 <= j < i ==> s[j] != x
  {
    if s[0] == x then 0 else 1 + FirstIndex(s[1..], x)
  }

  lemma FirstIndexBounds<T>(s: seq<T>, x: T)
    requires x in s
    ensures FirstIndex(s, x) < |s|
  {
  }

  lemma {:induction false} FirstIndexPrefix<T>(a: seq<T>, b: seq<T>, x: T)
    requires x in a + b
    ensures x in a ==> FirstIndex(a + b, x) == FirstIndex(a, x)
    ensures x !in a ==> FirstIndex(a + b, x) == |a| + FirstIndex(b, x)
  {
    if |a| > 0 {
      assert (a + b)[0] == a[0];
      if a[0] != x {
        assert (a + b)[1..] == a[1..] + b;
        FirstIndexPrefix(a[1..], b, x);
      }
    } else {
      assert a + b == b;
    }
  }

  /** `s.slice(0, end).length`: JavaScript clips `end` to the length and
      counts a negative `end` back from the end of the array. */
  function SliceEnd(len: nat, end: int): (n: nat)
    ensures n <= len
    ensures 0 <= end ==> n == if end <= len then end else len
    ensures end < 0 ==> n == if len + end >= 0 then len + end else 0
  {
    if end < 0 then (if len + end >= 0 then len + end else 0)
    else if end <= len then end else len
  }

  /** `parts.join(sep)`. */
  function Join(parts: seq<string>, sep: string): string
  {
    if |parts| == 0 then ""
    else if |parts| == 1 then parts[0]
    else parts[0] + sep + Join(parts[1..], sep)
  }

  function TotalLength(parts: seq<string>): nat
  {
    if |parts| == 0 then 0 else |parts[0]| + TotalLength(parts[1..])
  }

  /** A join starts with the first part, ends with the last, and is exactly
      as long as the parts plus the separators. */
  lemma {:induction false} JoinShape(parts: seq<string>, sep: string)
    requires |parts| > 0
    ensures parts[0] <= Join(parts, sep)
    ensures |Join(parts, sep)| == TotalLength(parts) + (|parts| - 1) * |sep|
    ensures |parts[|parts| - 1]| <= |Join(parts, sep)|
    ensures Join(parts, sep)[|Join(parts, sep)| - |parts[|parts| - 1]|..] == parts[|parts| - 1]
  {
    JoinLength(parts, sep);
    JoinEnds(parts, sep);
  }

  lemma {:induction false} JoinLength(parts: seq<string>, sep: string)
    requires |parts| > 0
    ensures |Join(parts, sep)| == TotalLength(parts) + (|parts| - 1) * |sep|
  {
    if |parts| > 1 {
      JoinLength(parts[1..], sep);
    }
  }

  /** The last part is a suffix of the join (the first is a prefix by the
      definition). */
  lemma {:induction false} JoinEnds(parts: seq<string>, sep: string)
    requires |parts| > 0
    ensures parts[0] <= Join(parts, sep)
    ensures |parts[|parts| - 1]| <= |Join(parts, sep)|
    ensures Join(parts, sep)[|Join(parts, sep)| - |parts[|parts| - 1]|..] == parts[|parts| - 1]
  {
    if |parts| > 1 {
      var rest := Join(parts[1..], sep);
      var last := parts[|parts| - 1];
      JoinEnds(parts[1..], sep);
      assert last == parts[1..][|parts[1..]| - 1];
      var whole := parts[0] + sep + rest;
      assert whole == Join(parts, sep);
      assert whole[|whole| - |last|..] == rest[|rest| - |last|..];
    }
  }

  /** A join is the parts in order with one separator between neighbours:
      a single part is itself, and cutting the list anywhere splits the join
      into the joins of the two halves around one separator. */
  lemma {:induction false} JoinSplit(parts: seq<string>, sep: string, k: nat)
    requires 0 < k < |parts|
    ensures Join([parts[0]], sep) == parts[0]
    ensures Join(parts, sep) == Join(parts[..k], sep) + sep + Join(parts[k..], sep)
  {
    var tail := parts[1..];
    if k > 1 {
      JoinSplit(tail, sep, k - 1);
      assert tail[k - 1..] == parts[k..];
      assert parts[..k][1..] == tail[..k - 1];
      assert Join(parts[..k], sep) == parts[0] + sep + Join(tail[..k - 1], sep);
    } else {
      assert parts[..k] == [parts[0]];
      assert parts[k..] == tail;
    }
  }

  function DigitChar(d: nat): (c: char)
    requires d < 10
    ensures '0' <= c <= '9'
  {
    ('0' as int + d) as char
  }

  predicate IsDigit(c: char) { '0' <= c <= '9' }

  /** The number a string of decimal digits denotes, most significant first. */
  function DecimalValue(s: string): nat
    requires forall i :: 0 <= i < |s| ==> IsDigit(s[i])
  {
    if |s| == 0 then 0
    else
      assert IsDigit(s[|s| - 1]);
      DecimalValue(s[..|s| - 1]) * 10 + (s[|s| - 1] as int - '0' as int)
  }

  /** The decimal numeral of n, as a template literal prints a whole number:
      digits that read back as n, with no leading zero. */
  function NatToString(n: nat): (s: string)
    ensures |s| >= 1
    ensures forall i :: 0 <= i < |s| ==> IsDigit(s[i])
    ensures DecimalValue(s) == n
    ensures n > 0 ==> s[0] != '0'
    ensures n == 0 ==> s == "0"
  {
    if n < 10 then [DigitChar(n)]
    else
      var prefix := NatToString(n / 10);
      var s := prefix + [DigitChar(n % 10)];
      assert s[..|s| - 1] == prefix;
      s
  }
}

/** An insertion-ordered key/value map with the semantics of a JavaScript
    `Map`: setting a new key appends it, setting an existing key replaces its
    value in place, and iteration follows the order of the entries. */
module OrderedMap {
  import opened Nullable
  import opened Seqs

  datatype Entry<K, V> = Entry(key: K, value: V)

  function Keys<K, V>(m: seq<Entry<K, V>>): (ks: seq<K>)
    ensures |ks| == |m|
    ensures forall i :: 0 <= i < |m| ==> ks[i] == m[i].key
  {
    if |m| == 0 then [] else [m[0].key] + Keys(m[1..])
  }

  /** `Array.from(m.values())`. */
  function Values<K, V>(m: seq<Entry<K, V>>): (vs: seq<V>)
    ensures |vs| == |m|
    ensures forall i :: 0 <= i < |m| ==> vs[i] == m[i].value
  {
    if |m| == 0 then [] else [m[0].value] + Values(m[1..])
  }

  /** Every key occurs once, as in any map built with the operations below. */
  predicate Valid<K(==), V>(m: seq<Entry<K, V>>) {
    Distinct(Keys(m))
  }

  /** `m.has(k)`. */
  predicate Has<K(==), V>(m: seq<Entry<K, V>>, k: K) {
    k in Keys(m)
  }

  /** `m.get(k)`: absent (`undefined`) when the key is not in the map. */
  function Get<K(==), V>(m: seq<Entry<K, V>>, k: K): (r: Option<V>)
    ensures r.Some? <==> Has(m, k)
    ensures r.Some? ==> Entry(k, r.value) in m
  {
    if |m| == 0 then None
    else if m[0].key == k then Some(m[0].value)
    else Get(m[1..], k)
  }

  /** In a valid map, the entry at position i is what `get` returns. */
  lemma {:induction false} GetAt<K, V>(m: seq<Entry<K, V>>, i: nat)
    requires Valid(m) && i < |m|
    ensures Get(m, m[i].key) == Some(m[i].value)
  {
    if i > 0 {
      assert Keys(m)[0] != Keys(m)[i];
      assert Keys(m[1..]) == Keys(m)[1..];
      GetAt(m[1..], i - 1);
    }
  }

  /** `m.set(k, v)`. */
  function Set<K(==,!new), V>(m: seq<Entry<K, V>>, k: K, v: V): (r: seq<Entry<K, V>>)
    ensures Has(m, k) ==> Keys(r) == Keys(m)
    ensures !Has(m, k) ==> Keys(r) == Keys(m) + [k]
    ensures Get(r, k) == Some(v)
    ensures forall k' :: k' != k ==> Get(r, k') == Get(m, k')
  {
    if |m| == 0 then [Entry(k, v)]
    else if m[0].key == k then
      var r := [Entry(k, v)] + m[1..];
      assert r[1..] == m[1..];
      r
    else
      var rest := Set(m[1..], k, v);
      SetBehindHeadKeys(m, k, rest);
      SetBehindHeadGet(m, k, v, rest);
      [m[0]] + rest
  }

  /** The recursive case of Set, for the keys: a map whose head is another
      key, with the key set in its tail. */
  lemma SetBehindHeadKeys<K(!new), V>(m: seq<Entry<K, V>>, k: K, rest: seq<Entry<K, V>>)
    requires |m| > 0 && m[0].key != k
    requires Has(m[1..], k) ==> Keys(rest) == Keys(m[1..])
    requires !Has(m[1..], k) ==> Keys(rest) == Keys(m[1..]) + [k]
    ensures Has(m, k) ==> Keys([m[0]] + rest) == Keys(m)
    ensures !Has(m, k) ==> Keys([m[0]] + rest) == Keys(m) + [k]
  {
    var r := [m[0]] + rest;
    assert r[1..] == rest;
    assert Keys(m) == [m[0].key] + Keys(m[1..]);
    assert Keys(r) == [m[0].key] + Keys(rest);
  }

  /** The recursive case of Set, for the values. */
  lemma SetBehindHeadGet<K(!new), V>(m: seq<Entry<K, V>>, k: K, v: V, rest: seq<Entry<K, V>>)
    requires |m| > 0 && m[0].key != k
    requires Get(rest, k) == Some(v)
    requires forall k' :: k' != k ==> Get(rest, k') == Get(m[1..], k')
    ensures Get([m[0]] + rest, k) == Some(v)
    ensures forall k' :: k' != k ==> Get([m[0]] + rest, k') == Get(m, k')
  {
    assert ([m[0]] + rest)[1..] == rest;
  }

  /** A key that is not yet present is appended as the last entry. */
  lemma {:induction false} SetNewKey<K(!new), V>(m: seq<Entry<K, V>>, k: K, v: V)
    requires !Has(m, k)
    ensures Set(m, k, v) == m + [Entry(k, v)]
  {
    if |m| > 0 {
      assert Keys(m)[0] == m[0].key;
      assert Keys(m[1..]) == Keys(m)[1..];
      assert !Has(m[1..], k);
      SetNewKey(m[1..], k, v);
      assert Set(m, k, v) == [m[0]] + (m[1..] + [Entry(k, v)]);
      assert [m[0]] + (m[1..] + [Entry(k, v)]) == m + [Entry(k, v)];
    }
  }

  /** `m.delete(k)`. */
  function Delete<K(==,!new), V>(m: seq<Entry<K, V>>, k: K): (r: seq<Entry<K, V>>)
    ensures !Has(r, k)
    ensures forall k' :: k' != k ==> Get(r, k') == Get(m, k')
    ensures Keys(r) == Filter(Keys(m), (x: K) => x != k)
  {
    if |m| == 0 then []
    else
      assert Keys(m)[1..] == Keys(m[1..]);
      if m[0].key == k then Delete(m[1..], k)
      else
        var r := [m[0]] + Delete(m[1..], k);
        assert r[1..] == Delete(m[1..], k);
        r
  }

  /** Deleting the key that was just appended undoes the append. */
  lemma {:induction false} DeleteLast<K(!new), V>(m: seq<Entry<K, V>>, k: K, v: V)
    requires !Has(m, k)
    ensures Delete(m + [Entry(k, v)], k) == m
  {
    if |m| == 0 {
      assert Delete([Entry(k, v)][1..], k) == [];
    } else {
      assert Keys(m)[0] == m[0].key;
      assert Keys(m[1..]) == Keys(m)[1..];
      assert (m + [Entry(k, v)])[1..] == m[1..] + [Entry(k, v)];
      DeleteLast(m[1..], k, v);
    }
  }

  /** `new Map(entries)`: the entries set one after another, so a repeated
      key ends up with the value of its last entry. */
  function FromEntries<K(==,!new), V>(es: seq<Entry<K, V>>): (m: seq<Entry<K, V>>)
    ensures Valid(m)
  {
    if |es| == 0 then []
    else
      var m0 := FromEntries(es[..|es| - 1]);
      var e := es[|es| - 1];
      assert Valid(Set(m0, e.key, e.value)) by {
        if !Has(m0, e.key) {
          assert Keys(Set(m0, e.key, e.value)) == Keys(m0) + [e.key];
        }
      }
      Set(m0, e.key, e.value)
  }

  /** The value of the last entry for key k, if any. */
  function LastValue<K(==), V>(es: seq<Entry<K, V>>, k: K): Option<V>
  {
    if |es| == 0 then None
    else if es[|es| - 1].key == k then Some(es[|es| - 1].value)
    else LastValue(es[..|es| - 1], k)
  }

  /** Looking a key up in `new Map(entries)` finds its last entry. */
  lemma {:induction false} FromEntriesGet<K(!new), V>(es: seq<Entry<K, V>>, k: K)
    ensures Get(FromEntries(es), k) == LastValue(es, k)
  {
    if |es| > 0 {
      FromEntriesGet(es[..|es| - 1], k);
    }
  }
}

=== FILE: dashboard_analytics.dfy ===
/** The dashboard aggregator: seat-level metrics reduced from booth health
    results, and the reshapers that turn series into chart rows. */
module DashboardAnalytics {
  import opened Nullable
  import opened Numeric
  import opened Seqs
  import opened BoothHealth

  const CadreTarget: int := 75
  const TurnoutSensitivityBase: real := 0.55

  /** The six seat-level figures of the strategic summary. */
  datatype SeatMetrics = SeatMetrics(
    seatHealthScore: real,
    avgBoothHealthIndex: real,
    riskZoneCount: nat,
    opportunityZoneCount: nat,
    cadrePerformanceIndex: real,
    turnoutSensitivityScore: real)

  const ZeroMetrics := SeatMetrics(0.0, 0.0, 0, 0, 0.0, 0.0)

  function Healths(rs: seq<BoothHealthResult>): (hs: seq<real>)
    ensures |hs| == |rs|
    ensures forall i :: 0 <= i < |rs| ==> hs[i] == rs[i].health_index
  {
    if |rs| == 0 then [] else [rs[0].health_index] + Healths(rs[1..])
  }

  function Swings(rs: seq<BoothHealthResult>): (ss: seq<real>)
    ensures |ss| == |rs|
    ensures forall i :: 0 <= i < |rs| ==> ss[i] == rs[i].swing_pct
  {
    if |rs| == 0 then [] else [rs[0].swing_pct] + Swings(rs[1..])
  }

  predicate IsRisk(r: BoothHealthResult) { r.health_index < RiskThreshold }

  predicate IsOpportunity(r: BoothHealthResult) { r.health_index >= OpportunityThreshold }

  /** Two filters with disjoint predicates together keep at most every element. */
  lemma {:induction false} DisjointFiltersBound<T>(s: seq<T>, p: T -> bool, q: T -> bool)
    requires forall x :: !(p(x) && q(x))
    ensures |Filter(s, p)| + |Filter(s, q)| <= |s|
  {
    if |s| > 0 {
      DisjointFiltersBound(s[1..], p, q);
    }
  }

  /** The rounded mean of health indices that all lie in [0, 100] lies there too. */
  lemma AvgHealthInRange(rs: seq<BoothHealthResult>)
    requires |rs| > 0
    ensures (forall i :: 0 <= i < |rs| ==> 0.0 <= rs[i].health_index <= 100.0)
            ==> 0.0 <= RoundTenth(Mean(Healths(rs))) <= 100.0
  {
    if forall i :: 0 <= i < |rs| ==> 0.0 <= rs[i].health_index <= 100.0 {
      MeanBounds(Healths(rs), 0.0, 100.0);
      RoundTenthWithin(Mean(Healths(rs)), 0, 100);
    }
  }

  function ComputeSeatMetrics(rs: seq<BoothHealthResult>): (m: SeatMetrics)
    ensures |rs| == 0 ==> m == ZeroMetrics
    ensures m.riskZoneCount == |Filter(rs, IsRisk)|
    ensures m.opportunityZoneCount == |Filter(rs, IsOpportunity)|
    ensures m.riskZoneCount + m.opportunityZoneCount <= |rs|
    ensures 0.0 <= m.seatHealthScore <= 100.0
    ensures 0.0 <= m.cadrePerformanceIndex <= 100.0
    ensures (forall i :: 0 <= i < |rs| ==> 0.0 <= rs[i].health_index <= 100.0)
            ==> 0.0 <= m.avgBoothHealthIndex <= 100.0
    ensures |rs| > 0 ==>
              && m.avgBoothHealthIndex == RoundTenth(Mean(Healths(rs)))
              && m.seatHealthScore
                 == RoundTenth(Clamp(50.0 + Mean(Swings(rs)) * 5.0 + Mean(Healths(rs)) * 0.3, 0.0, 100.0))
              && m.cadrePerformanceIndex
                 == RoundTenth(Clamp(Mean(Healths(rs)) / CadreTarget as real * 100.0, 0.0, 100.0))
              && m.turnoutSensitivityScore == RoundTenth(TurnoutSensitivityBase + Mean(Swings(rs)) * 0.01)
  {
    DisjointFiltersBound(rs, IsRisk, IsOpportunity);
    if |rs| == 0 then ZeroMetrics
    else
      var avgHealth := Mean(Healths(rs));
      var avgSwing := Mean(Swings(rs));
      var seatHealth := Clamp(50.0 + avgSwing * 5.0 + avgHealth * 0.3, 0.0, 100.0);
      var cadreIndex := Clamp(avgHealth / CadreTarget as real * 100.0, 0.0, 100.0);
      RoundTenthWithin(seatHealth, 0, 100);
      RoundTenthWithin(cadreIndex, 0, 100);
      AvgHealthInRange(rs);
      SeatMetrics(
        seatHealthScore := RoundTenth(seatHealth),
        avgBoothHealthIndex := RoundTenth(avgHealth),
        riskZoneCount := |Filter(rs, IsRisk)|,
        opportunityZoneCount := |Filter(rs, IsOpportunity)|,
        cadrePerformanceIndex := RoundTenth(cadreIndex),
        turnoutSensitivityScore := RoundTenth(TurnoutSensitivityBase + avgSwing * 0.01))
  }

  function WithHealth(h: real): BoothHealthResult
  {
    BoothHealthResult("b", "1", h, 0.0, 0.0, 0.0, "Unknown", None, 0.0)
  }

  /** Healths 40, 60 and 80: one risk booth (40), one opportunity booth (80),
      and 60 is neither. */
  lemma ThreeBoothExample()
    ensures var m := ComputeSeatMetrics([WithHealth(40.0), WithHealth(60.0), WithHealth(80.0)]);
            m.riskZoneCount == 1 && m.opportunityZoneCount == 1 && m.avgBoothHealthIndex == 60.0
  {
    var rs := [WithHealth(40.0), WithHealth(60.0), WithHealth(80.0)];
    assert rs[1..][1..][1..] == [];
    assert Filter(rs, IsRisk) == [rs[0]];
    assert Filter(rs, IsOpportunity) == [rs[2]];
    assert Healths(rs) == [40.0, 60.0, 80.0];
    assert Sum([40.0, 60.0, 80.0]) == 180.0 by {
      assert [40.0, 60.0, 80.0][1..] == [60.0, 80.0];
      assert [60.0, 80.0][1..] == [80.0];
    }
    assert Round(600.0) == 600;
  }

  // ---------------------------------------------------------------------
  // Chart series
  // ---------------------------------------------------------------------

  datatype SwingTrendInput = SwingTrendInput(period: string, swing: real, projection: Option<real>)
  datatype SwingTrendPoint = SwingTrendPoint(name: string, swing: real, projection: real)

  /** One point per period, in order; a missing projection repeats the swing. */
  function BuildSwingTrend(periods: seq<SwingTrendInput>): (r: seq<SwingTrendPoint>)
    ensures |r| == |periods|
    ensures forall i :: 0 <= i < |r| ==>
              && r[i].name == periods[i].period
              && r[i].swing == periods[i].swing
              && (periods[i].projection.Some? ==> r[i].projection == periods[i].projection.value)
              && (periods[i].projection.None? ==> r[i].projection == periods[i].swing)
  {
    seq(|periods|, i requires 0 <= i < |periods| =>
      SwingTrendPoint(periods[i].period, periods[i].swing, periods[i].projection.OrElse(periods[i].swing)))
  }

  datatype VoteShareInput = VoteShareInput(booth_name: string, our_votes: real, opponent_votes: real, projected: Option<real>)
  datatype VoteSharePoint = VoteSharePoint(name: string, ourVotes: real, opponentVotes: real, projected: real)

  /** The default projection: our votes grown by 5 percent, rounded. */
  function DefaultProjection(ourVotes: real): (p: real)
    ensures ourVotes * 1.05 - 0.5 < p <= ourVotes * 1.05 + 0.5
    ensures p.Floor as real == p
  {
    Round(ourVotes * 1.05) as real
  }

  /** For a whole, non-negative vote count the default projection never
      falls below the count itself. */
  lemma DefaultProjectionAtLeastVotes(n: nat)
    ensures n as real <= DefaultProjection(n as real)
  {
    RoundMonotone(n as real, n as real * 1.05);
    RoundOfInteger(n);
  }

  function BuildVoteShareProjection(items: seq<VoteShareInput>): (r: seq<VoteSharePoint>)
    ensures |r| == |items|
    ensures forall i :: 0 <= i < |r| ==>
              && r[i].name == items[i].booth_name
              && r[i].ourVotes == items[i].our_votes
              && r[i].opponentVotes == items[i].opponent_votes
              && (items[i].projected.Some? ==> r[i].projected == items[i].projected.value)
              && (items[i].projected.None? ==> r[i].projected == DefaultProjection(items[i].our_votes))
  {
    seq(|items|, i requires 0 <= i < |items| =>
      VoteSharePoint(items[i].booth_name, items[i].our_votes, items[i].opponent_votes,
                     items[i].projected.OrElse(DefaultProjection(items[i].our_votes))))
  }

  datatype TurnoutInput = TurnoutInput(year: string, turnout: real)
  datatype TurnoutPoint = TurnoutPoint(name: string, turnout: real)

  function BuildTurnoutData(items: seq<TurnoutInput>): (r: seq<TurnoutPoint>)
    ensures |r| == |items|
    ensures forall i :: 0 <= i < |r| ==> r[i].name == items[i].year && r[i].turnout == items[i].turnout
  {
    seq(|items|, i requires 0 <= i < |items| => TurnoutPoint(items[i].year, items[i].turnout))
  }

  datatype SwingPeriod = SwingPeriod(period: string, swing: real)
  datatype SentimentPoint = SentimentPoint(name: string, favorable: int, neutral: int, unfavorable: int)

  /** Change in swing since the previous period; the first period has none. */
  function Delta(s: seq<SwingPeriod>, i: nat): real
    requires i < |s|
  {
    if i > 0 then s[i].swing - s[i - 1].swing else 0.0
  }

  /** 45 percent moved five points per point of swing change, held to
      [30, 60]. */
  function Favorable(delta: real): (f: real)
    ensures 30.0 <= f <= 60.0
    ensures -3.0 <= delta <= 3.0 ==> f == 45.0 + 5.0 * delta
    ensures delta <= -3.0 ==> f == 30.0
    ensures delta >= 3.0 ==> f == 60.0
  {
    Clamp(45.0 + delta * 5.0, 30.0, 60.0)
  }

  /** 20 percent moved two points against each point of swing change, held
      to [10, 30]. */
  function Unfavorable(delta: real): (u: real)
    ensures 10.0 <= u <= 30.0
    ensures -5.0 <= delta <= 5.0 ==> u == 20.0 - 2.0 * delta
    ensures delta >= 5.0 ==> u == 10.0
    ensures delta <= -5.0 ==> u == 30.0
  {
    Clamp(20.0 - delta * 2.0, 10.0, 30.0)
  }

  /** The three shares before rounding always make up 100, with the neutral
      share left over in [10, 60]. */
  function NeutralShare(delta: real): (n: real)
    ensures 10.0 <= n <= 60.0
    ensures Favorable(delta) + n + Unfavorable(delta) == 100.0
  {
    100.0 - Favorable(delta) - Unfavorable(delta)
  }

  function SentimentFor(name: string, delta: real): (p: SentimentPoint)
    ensures 30 <= p.favorable <= 60
    ensures 10 <= p.unfavorable <= 30
    ensures 10 <= p.neutral <= 60
    ensures 99 <= p.favorable + p.neutral + p.unfavorable <= 101
    ensures p.name == name
    ensures p.favorable == Round(Favorable(delta))
    ensures p.neutral == Round(NeutralShare(delta))
    ensures p.unfavorable == Round(Unfavorable(delta))
  {
    RoundWithin(Favorable(delta), 30, 60);
    RoundWithin(Unfavorable(delta), 10, 30);
    RoundWithin(NeutralShare(delta), 10, 60);
    SentimentPoint(name, Round(Favorable(delta)), Round(NeutralShare(delta)), Round(Unfavorable(delta)))
  }

  function BuildSentimentFromSwing(s: seq<SwingPeriod>): (r: seq<SentimentPoint>)
    ensures |r| == |s|
    ensures forall i :: 0 <= i < |r| ==> r[i] == SentimentFor(s[i].period, Delta(s, i))
    ensures forall i :: 0 <= i < |r| ==>
              && 30 <= r[i].favorable <= 60
              && 10 <= r[i].unfavorable <= 30
              && 10 <= r[i].neutral <= 60
    ensures |r| > 0 ==> r[0] == SentimentPoint(s[0].period, 45, 35, 20)
  {
    assert Round(45.0) == 45 && Round(35.0) == 35 && Round(20.0) == 20;
    seq(|s|, i requires 0 <= i < |s| => SentimentFor(s[i].period, Delta(s, i)))
  }

  /** A rise in swing moves sentiment towards favourable: the favourable
      share never falls and the unfavourable share never rises. */
  lemma SentimentMonotone(d1: real, d2: real)
    requires d1 <= d2
    ensures SentimentFor("", d1).favorable <= SentimentFor("", d2).favorable
    ensures SentimentFor("", d1).unfavorable >= SentimentFor("", d2).unfavorable
  {
    RoundMonotone(Favorable(d1), Favorable(d2));
    RoundMonotone(Unfavorable(d2), Unfavorable(d1));
  }

  /** The rounded shares need not add up to 100: a rise of 0.1 gives
      45.5 / 34.7 / 19.8, shown as 46 / 35 / 20. */
  lemma RoundedSharesCanExceed100()
    ensures var p := SentimentFor("", 0.1);
            p.favorable + p.neutral + p.unfavorable == 101
  {
    assert Favorable(0.1) == 45.5;
    assert Unfavorable(0.1) == 19.8;
    assert Round(45.5) == 46 && Round(34.7) == 35 && Round(19.8) == 20;
  }

  datatype RegionHealth = RegionHealth(name: string, avgHealth: real)
  datatype CadrePoint = CadrePoint(name: string, performance: int, target: int)

  function BuildCadrePerformance(regions: seq<RegionHealth>): (r: seq<CadrePoint>)
    ensures |r| == |regions|
    ensures forall i :: 0 <= i < |r| ==>
              && r[i].name == regions[i].name
              && r[i].target == CadreTarget
              && regions[i].avgHealth - 0.5 < r[i].performance as real <= regions[i].avgHealth + 0.5
    ensures forall i :: 0 <= i < |r| && 0.0 <= regions[i].avgHealth <= 100.0 ==>
              0 <= r[i].performance <= 100
  {
    forall i | 0 <= i < |regions| && 0.0 <= regions[i].avgHealth <= 100.0
      ensures 0 <= Round(regions[i].avgHealth) <= 100
    {
      RoundWithin(regions[i].avgHealth, 0, 100);
    }
    seq(|regions|, i requires 0 <= i < |regions| =>
      CadrePoint(regions[i].name, Round(regions[i].avgHealth), CadreTarget))
  }

  // ---------------------------------------------------------------------
  // Risk heat grid
  // ---------------------------------------------------------------------

  /** Risk of a booth: its shortfall from full health, rounded. */
  function RiskScore(r: BoothHealthResult): (score: int)
    ensures 100.0 - r.health_index - 0.5 < score as real <= 100.0 - r.health_index + 0.5
    ensures 0.0 <= r.health_index <= 100.0 ==> 0 <= score <= 100
  {
    var score := Round(100.0 - r.health_index);
    assert 0.0 <= r.health_index <= 100.0 ==> 0 <= score <= 100 by {
      if 0.0 <= r.health_index <= 100.0 {
        RoundWithin(100.0 - r.health_index, 0, 100);
      }
    }
    score
  }

  function RiskScores(rs: seq<BoothHealthResult>): (scores: seq<int>)
    ensures |scores| == |rs|
    ensures forall i :: 0 <= i < |rs| ==> scores[i] == RiskScore(rs[i])
  {
    seq(|rs|, i requires 0 <= i < |rs| => RiskScore(rs[i]))
  }

  /** The rows of a grid read left to right, top to bottom. */
  function Flatten(rows: seq<seq<int>>): seq<int>
  {
    if |rows| == 0 then [] else Flatten(rows[..|rows| - 1]) + rows[|rows| - 1]
  }

  /** Packs the risk scores into rows of `cols` cells, the last row holding
      what is left over; no booths give the single cell `[[0]]` whatever the
      column count. With at least one booth the source loop only ends for a
      positive column count. */
  method BuildRiskHeatGrid(rs: seq<BoothHealthResult>, cols: int) returns (grid: seq<seq<int>>)
    requires |rs| == 0 || cols >= 1
    ensures |rs| == 0 ==> grid == [[0]]
    ensures |rs| > 0 ==> Flatten(grid) == RiskScores(rs)
    ensures |grid| >= 1
    ensures forall k :: 0 <= k < |grid| - 1 ==> |grid[k]| == cols
    ensures |rs| > 0 ==> 1 <= |grid[|grid| - 1]| <= cols
  {
    var scores := RiskScores(rs);
    var n := |scores|;
    var rows: seq<seq<int>> := [];
    var i := 0;
    while i < n
      invariant 0 <= i
      invariant Flatten(rows) == scores[..if i <= n then i else n]
      invariant |rows| == 0 <==> i == 0
      invariant forall k :: 0 <= k < |rows| ==> 1 <= |rows[k]| <= cols
      invariant forall k :: 0 <= k < |rows| - 1 ==> |rows[k]| == cols
      invariant i <= n ==> forall k :: 0 <= k < |rows| ==> |rows[k]| == cols
      decreases n - i
    {
      var end := if i + cols <= n then i + cols else n;
      var chunk := scores[i..end];
      assert (rows + [chunk])[..|rows|] == rows;
      assert scores[..end] == scores[..i] + chunk;
      rows := rows + [chunk];
      i := i + cols;
    }
    assert scores[..n] == scores;
    if |rows| > 0 {
      grid := rows;
    } else {
      grid := [[0]];
    }
  }
}

=== FILE: dashboard_service.dfy ===
/** The served dashboard summary: the aggregation over the booth rows of one
    constituency that the summary route returns. The booth query is not
    modelled; its result is the input. */
module DashboardService {
  import opened Nullable
  import opened Numeric
  import opened Seqs
  import DashboardAnalytics

  /** The `booth_health_index` column of a booth row as JavaScript sees it:
      an absent property (`undefined`), a SQL null (`null`) or a number. */
  datatype HealthField = Missing | Null | Value(v: real)

  const ServedCadrePerformance: real := 65.0
  const ServedTurnoutSensitivity: real := 72.0

  /** What the route returns: the six figures and six chart series. */
  datatype DashboardSummary = DashboardSummary(
    strategicSummary: DashboardAnalytics.SeatMetrics,
    swingTrendData: seq<DashboardAnalytics.SwingTrendPoint>,
    voteShareProjectionData: seq<DashboardAnalytics.VoteSharePoint>,
    turnoutModelData: seq<DashboardAnalytics.TurnoutPoint>,
    sentimentData: seq<DashboardAnalytics.SentimentPoint>,
    cadrePerformanceData: seq<DashboardAnalytics.CadrePoint>,
    riskHeatGridData: seq<seq<int>>)

  /** JavaScript's `ToNumber` on the field: `undefined` is NaN (None),
      `null` is 0. */
  function ToNumber(f: HealthField): Option<real>
  {
    match f
    case Missing => None
    case Null => Some(0.0)
    case Value(v) => Some(v)
  }

  /** `f < c` in JavaScript: any comparison with NaN is false. */
  predicate JsLess(f: HealthField, c: real)
  {
    match ToNumber(f)
    case None => false
    case Some(x) => x < c
  }

  /** `f >= c` in JavaScript. */
  predicate JsAtLeast(f: HealthField, c: real)
  {
    match ToNumber(f)
    case None => false
    case Some(x) => x >= c
  }

  /** `f || 0`: the falsy values (`undefined`, `null`, 0) all become 0, and a
      number 0 is already 0, so only the missing and null fields change. */
  function OrZero(f: HealthField): real
  {
    match f
    case Value(v) => v
    case _ => 0.0
  }

  function RiskPred(): HealthField -> bool
  {
    (f: HealthField) => JsLess(f, 50.0)
  }

  function OpportunityPred(): HealthField -> bool
  {
    (f: HealthField) => JsAtLeast(f, 50.0) && JsLess(f, 70.0)
  }

  /** The risk band decoded: a null health or a number below 50. */
  predicate NullOrBelowFifty(f: HealthField)
  {
    f.Null? || (f.Value? && f.v < 50.0)
  }

  /** The opportunity band decoded: a number in [50, 70). */
  predicate FiftyToSeventy(f: HealthField)
  {
    f.Value? && 50.0 <= f.v < 70.0
  }

  /** The health each booth contributes to the mean. */
  function Contributions(bs: seq<HealthField>): (xs: seq<real>)
    ensures |xs| == |bs|
    ensures forall i :: 0 <= i < |bs| ==> xs[i] == (if bs[i].Value? then bs[i].v else 0.0)
  {
    seq(|bs|, i requires 0 <= i < |bs| => OrZero(bs[i]))
  }

  /** `getDashboardSummary` after the fetch; None is a null result. */
  function GetDashboardSummary(booths: Option<seq<HealthField>>): (d: DashboardSummary)
    ensures booths.None? || |booths.value| == 0 ==> d.strategicSummary == DashboardAnalytics.ZeroMetrics
    ensures && d.swingTrendData == [] && d.voteShareProjectionData == [] && d.turnoutModelData == []
            && d.sentimentData == [] && d.cadrePerformanceData == [] && d.riskHeatGridData == []
    ensures booths.Some? && |booths.value| > 0 ==>
              var bs := booths.value;
              var m := d.strategicSummary;
              && m.seatHealthScore == m.avgBoothHealthIndex
              && m.avgBoothHealthIndex == Round(Mean(Contributions(bs))) as real
              && m.riskZoneCount == |Filter(bs, NullOrBelowFifty)|
              && m.opportunityZoneCount == |Filter(bs, FiftyToSeventy)|
              && m.riskZoneCount + m.opportunityZoneCount <= |bs|
              && m.cadrePerformanceIndex == ServedCadrePerformance
              && m.turnoutSensitivityScore == ServedTurnoutSensitivity
  {
    if booths.None? || |booths.value| == 0 then
      DashboardSummary(DashboardAnalytics.ZeroMetrics, [], [], [], [], [], [])
    else
      var bs := booths.value;
      var avgHealth := Mean(Contributions(bs));
      ServedCountsMeaning(bs);
      DashboardAnalytics.DisjointFiltersBound(bs, RiskPred(), OpportunityPred());
      var metrics := DashboardAnalytics.SeatMetrics(
        seatHealthScore := Round(avgHealth) as real,
        avgBoothHealthIndex := Round(avgHealth) as real,
        riskZoneCount := |Filter(bs, RiskPred())|,
        opportunityZoneCount := |Filter(bs, OpportunityPred())|,
        cadrePerformanceIndex := ServedCadrePerformance,
        turnoutSensitivityScore := ServedTurnoutSensitivity);
      DashboardSummary(metrics, [], [], [], [], [], [])
  }

  /** The JavaScript comparisons decoded: a null health counts as 0 and so
      as a risk booth, a missing one is in neither band. */
  lemma ServedCountsMeaning(bs: seq<HealthField>)
    ensures Filter(bs, RiskPred()) == Filter(bs, NullOrBelowFifty)
    ensures Filter(bs, OpportunityPred()) == Filter(bs, FiftyToSeventy)
  {
    FilterSamePredicate(bs, RiskPred(), NullOrBelowFifty);
    FilterSamePredicate(bs, OpportunityPred(), FiftyToSeventy);
  }

  lemma {:induction false} FilterSamePredicate<T>(s: seq<T>, p: T -> bool, q: T -> bool)
    requires forall x :: p(x) == q(x)
    ensures Filter(s, p) == Filter(s, q)
  {
    if |s| > 0 {
      FilterSamePredicate(s[1..], p, q);
    }
  }

  /** The two served scores are the mean health rounded to a whole number:
      within half a point of it, and in [0, 100] when every health is. */
  lemma ServedScoreBounds(bs: seq<HealthField>)
    requires |bs| > 0
    ensures var m := GetDashboardSummary(Some(bs)).strategicSummary;
            && Mean(Contributions(bs)) - 0.5 < m.seatHealthScore <= Mean(Contributions(bs)) + 0.5
            && ((forall i :: 0 <= i < |bs| ==> bs[i].Value? ==> 0.0 <= bs[i].v <= 100.0)
                ==> 0.0 <= m.seatHealthScore <= 100.0)
  {
    if forall i :: 0 <= i < |bs| ==> bs[i].Value? ==> 0.0 <= bs[i].v <= 100.0 {
      MeanBounds(Contributions(bs), 0.0, 100.0);
      RoundWithin(Mean(Contributions(bs)), 0, 100);
    }
  }

  /** A null health and a health of 0 are served identically. */
  lemma NullIsZero(bs: seq<HealthField>, i: nat)
    requires i < |bs| && bs[i] == Null
    ensures GetDashboardSummary(Some(bs)) == GetDashboardSummary(Some(bs[i := Value(0.0)]))
  {
    var bs' := bs[i := Value(0.0)];
    assert Contributions(bs) == Contributions(bs');
    FilterSamePredicateOnUpdate(bs, i, Value(0.0), RiskPred());
    FilterSamePredicateOnUpdate(bs, i, Value(0.0), OpportunityPred());
  }

  lemma {:induction false} FilterSamePredicateOnUpdate<T>(s: seq<T>, i: nat, y: T, p: T -> bool)
    requires i < |s| && p(s[i]) == p(y)
    ensures |Filter(s, p)| == |Filter(s[i := y], p)|
  {
    if i == 0 {
      assert s[i := y][1..] == s[1..];
    } else {
      FilterSamePredicateOnUpdate(s[1..], i - 1, y, p);
      assert s[i := y][1..] == s[1..][i - 1 := y];
    }
  }

  /** The served bands differ from the seat aggregator's: a health of 60 is
      an opportunity here and neutral there, a health of 75 is an opportunity
      there and in neither band here. */
  lemma BandsDifferFromAggregator()
    ensures var m := GetDashboardSummary(Some([Value(60.0), Value(75.0)])).strategicSummary;
            m.riskZoneCount == 0 && m.opportunityZoneCount == 1
    ensures var a := DashboardAnalytics.ComputeSeatMetrics(
              [DashboardAnalytics.WithHealth(60.0), DashboardAnalytics.WithHealth(75.0)]);
            a.riskZoneCount == 0 && a.opportunityZoneCount == 1
    ensures !OpportunityPred()(Value(75.0)) && DashboardAnalytics.IsOpportunity(DashboardAnalytics.WithHealth(75.0))
    ensures OpportunityPred()(Value(60.0)) && !DashboardAnalytics.IsOpportunity(DashboardAnalytics.WithHealth(60.0))
  {
    var bs := [Value(60.0), Value(75.0)];
    assert bs[1..][1..] == [];
    assert Filter(bs, RiskPred()) == [];
    assert Filter(bs, OpportunityPred()) == [Value(60.0)];
    var rs := [DashboardAnalytics.WithHealth(60.0), DashboardAnalytics.WithHealth(75.0)];
    assert rs[1..][1..] == [];
    assert Filter(rs, DashboardAnalytics.IsRisk) == [];
    assert Filter(rs, DashboardAnalytics.IsOpportunity) == [rs[1]];
  }

  /** A booth whose health property is absent is averaged in as 0 but is not
      counted as a risk booth, unlike a null health. */
  lemma MissingIsNotRisk()
    ensures GetDashboardSummary(Some([Missing])).strategicSummary.riskZoneCount == 0
    ensures GetDashboardSummary(Some([Null])).strategicSummary.riskZoneCount == 1
    ensures GetDashboardSummary(Some([Missing])).strategicSummary.avgBoothHealthIndex
            == GetDashboardSummary(Some([Null])).strategicSummary.avgBoothHealthIndex
  {
    assert Filter([Missing], RiskPred()) == [];
    assert Filter([Null], RiskPred()) == [Null];
    assert Contributions([Missing]) == Contributions([Null]);
  }
}

=== FILE: numeric.dfy ===
/** JavaScript number helpers used throughout the scoring pipeline, over exact
    reals. `Math.round(x)` is `Floor(x + 0.5)` and `Math.round(x * 10) / 10`
    rounds to one decimal place. */
module Numeric {

  function Min(a: real, b: real): real { if a <= b then a else b }

  function Max(a: real, b: real): real { if a >= b then a else b }

  /** `Math.min(hi, Math.max(lo, x))`: x forced into [lo, hi]. */
  function Clamp(x: real, lo: real, hi: real): (r: real)
    requires lo <= hi
    ensures lo <= r <= hi
    ensures lo <= x <= hi ==> r == x
    ensures x <= lo ==> r == lo
    ensures x >= hi ==> r == hi
  {
    Min(hi, Max(lo, x))
  }

  /** `Math.round(x)` for a finite x: the nearest integer, halves rounding up. */
  function Round(x: real): (n: int)
    ensures x - 0.5 < n as real <= x + 0.5
  {
    (x + 0.5).Floor
  }

  /** `Math.round(x * 10) / 10`: x rounded to one decimal place. The result
      is a whole number of tenths in (x - 0.05, x + 0.05], and that half-open
      interval holds exactly one such number. */
  function RoundTenth(x: real): (r: real)
    ensures x - 0.05 < r <= x + 0.05
    ensures (10.0 * r).Floor as real == 10.0 * r
  {
    Round(x * 10.0) as real / 10.0
  }

  /** The contract of Round pins it down: the one integer in (x - ½, x + ½]. */
  lemma RoundUnique(x: real, n: int)
    requires x - 0.5 < n as real <= x + 0.5
    ensures n == Round(x)
  {
  }

  /** The contract of RoundTenth pins it down: the one whole number of tenths
      in (x - 0.05, x + 0.05]. */
  lemma RoundTenthUnique(x: real, r: real)
    requires x - 0.05 < r <= x + 0.05
    requires (10.0 * r).Floor as real == 10.0 * r
    ensures r == RoundTenth(x)
  {
    var n := (10.0 * r).Floor;
    RoundUnique(x * 10.0, n);
  }

  lemma RoundMonotone(x: real, y: real)
    requires x <= y
    ensures Round(x) <= Round(y)
  {
  }

  /** Rounding an integer-valued number gives it back. */
  lemma RoundOfInteger(n: int)
    ensures Round(n as real) == n
  {
  }

  /** Rounding never leaves an interval whose ends are whole numbers. */
  lemma RoundWithin(x: real, lo: int, hi: int)
    requires lo as real <= x <= hi as real
    ensures lo <= Round(x) <= hi
  {
    RoundMonotone(lo as real, x);
    RoundMonotone(x, hi as real);
  }

  lemma RoundTenthMonotone(x: real, y: real)
    requires x <= y
    ensures RoundTenth(x) <= RoundTenth(y)
  {
    RoundMonotone(x * 10.0, y * 10.0);
  }

  /** Rounding to a tenth keeps a value inside an interval whose ends are
      whole tenths; used with [0, 100]. */
  lemma RoundTenthWithin(x: real, lo: int, hi: int)
    requires lo as real <= x <= hi as real
    ensures lo as real <= RoundTenth(x) <= hi as real
  {
    RoundWithin(x * 10.0, lo * 10, hi * 10);
  }

  /** `xs.reduce((s, v) => s + v, 0)`. */
  function Sum(xs: seq<real>): real
  {
    if |xs| == 0 then 0.0 else xs[0] + Sum(xs[1..])
  }

  /** Arithmetic mean of a non-empty list. */
  function Mean(xs: seq<real>): real
    requires |xs| > 0
  {
    Sum(xs) / |xs| as real
  }

  lemma {:induction false} SumBounds(xs: seq<real>, lo: real, hi: real)
    requires forall i :: 0 <= i < |xs| ==> lo <= xs[i] <= hi
    ensures lo * |xs| as real <= Sum(xs) <= hi * |xs| as real
  {
    if |xs| > 0 {
      SumBounds(xs[1..], lo, hi);
    }
  }

  /** The mean of values that all lie in [lo, hi] lies in [lo, hi]. */
  lemma MeanBounds(xs: seq<real>, lo: real, hi: real)
    requires |xs| > 0
    requires forall i :: 0 <= i < |xs| ==> lo <= xs[i] <= hi
    ensures lo <= Mean(xs) <= hi
  {
    SumBounds(xs, lo, hi);
    var n := |xs| as real;
    assert Sum(xs) / n >= lo by {
      assert Sum(xs) >= lo * n;
    }
    assert Sum(xs) / n <= hi by {
      assert Sum(xs) <= hi * n;
    }
  }
}
